=== FILE: README.md ===
# romy input engine — a Dafny model

Romy is a small game runtime. Each step it gathers the input devices that the host
platform has seen into an `InputCollection`. It then hands every player of the game one
device, of the kind the game asked for in its `Info`. This project models that input
engine and proves its properties:

- the three device variants (`Nes`, `Controller`, `Keyboard`), with their affinity
  scores and their fixed, partial conversion table;
- the field-wise combination of two devices, and the scan-code-keyed keyboard
  merge built from `key_down` / `key_up`;
- the pool's aggregate `affinity`, `convert` and `combine`;
- the greedy `split`, which gives each slot the earliest device of strictly lowest
  affinity and removes it from the working list;
- the fixpoint loop of `get_input_arguments`, which folds surplus devices into the
  slots already filled;
- the game-side wrappers: `Info::new`, the step interval, `StepArguments`,
  `InputArguments::player`, and the typed views `nes()` / `controller()` / `keyboard()`.

Modules, one per file:

- `Optional` (optional.dfy): the `Option` type.
- `Pads` (pads.dfy): the NES pad and the dual-stick controller. This covers their
  combination and the controller's stick-to-d-pad mapping.
- `Keys` (keys.dfy): key codes, keys and the keyboard. This covers the pressed list
  kept in order, `key_down` / `key_up`, the keyboard merge, and the keyboard's NES
  key binding.
- `Devices` (devices.dfy): device kinds, the device sum type, affinity, conversion and
  cross-kind combination.
- `Collection` (collection.dfy): the device pool, its aggregates, `split` and the
  fixpoint assignment.
- `Game` (game.dfy): the `lib.rs` side, that is the game info and the arguments
  passed to each step.
- `Scenarios` (scenarios.dfy): worked assignments on small pools.

Modelling choices:

- `f32` axis values are `real`.
- Integer widths are written out where they matter:
  - `steps as u32` wraps a negative rate.
  - `player as usize` sends a negative index past the end.
- A keyboard's pressed list is an ordered sequence. The key reported for a scan code
  is its last entry (`Keys.Entry`). Under the invariant that keeps one entry per scan
  code (`Keys.UniqueScans`), the last entry is the only one.
- "Device `e` keeps every input of device `d`" is the order `Devices.Dominates`. It
  holds when the two devices are of the same kind and every button pressed on `d` is
  pressed on `e`. For a controller, every axis must also be at least as large. For a
  keyboard, every pressed scan code must still be pressed.

## Model

| member | source | states |
|---|---|---|
| Pads.NesCombineButton | romy-core/src/input.rs:362-375 | a button of the fused pad is down exactly when it is down on either pad |
| Pads.NesCombineCommutative | romy-core/src/input.rs:362-375 | fusing two NES pads does not depend on their order |
| Pads.NesCombineAssociative | romy-core/src/input.rs:362-375 | fusing three NES pads does not depend on grouping |
| Pads.NesCombineIdempotent | romy-core/src/input.rs:362-375 | a NES pad fused with itself is unchanged |
| Pads.NesCombineReleased | romy-core/src/input.rs:362-375 | the all-released pad is a neutral element on both sides |
| Pads.NesCombineUpperBound | romy-core/src/input.rs:362-375 | every button down on either operand is down on the fused pad |
| Pads.NesCombineLeastUpperBound | romy-core/src/input.rs:362-375 | the fused pad is below a third pad exactly when both operands are; fusing presses nothing extra |
| Pads.Max | romy-core/src/input.rs:702-707 | an axis's `max` is one of its operands and at least both |
| Pads.ControllerCombineUpperBound | romy-core/src/input.rs:684-710 | the fused controller has every button of both operands down and every axis at least both operands' values |
| Pads.ControllerCombineCommutative | romy-core/src/input.rs:684-710 | fusing two controllers does not depend on their order |
| Pads.ControllerCombineAssociative | romy-core/src/input.rs:684-710 | fusing three controllers does not depend on grouping |
| Pads.ControllerCombineIdempotent | romy-core/src/input.rs:684-710 | a controller fused with itself is unchanged |
| Pads.ControllerCombineLeast | romy-core/src/input.rs:684-710 | a controller above both operands is above the fused controller |
| Pads.ControllerToNesDeadZone | romy-core/src/input.rs:712-726 | inside the ±0.5 dead zone, the d-pad directions are the controller's own d-pad buttons; a stick strictly below -0.5 presses up or left and one at or above 0.5 presses down or right, so a full deflection presses its direction |
| Pads.ControllerToNesOpposites | romy-core/src/input.rs:712-726 | with neither d-pad button of an axis pressed, the stick alone never presses two opposite directions |
| Pads.ControllerToNesButtons | romy-core/src/input.rs:712-726 | A, B, start and select are copied; a held d-pad button always presses its direction whatever the stick does; and a direction is pressed only by its own button or by the stick past the threshold |
| Pads.ControllerCombineToNes | romy-core/src/input.rs:684-726 | fusing controllers and then mapping to a NES pad agrees with mapping first and fusing the pads on a, b, start, select, down and right; for up and left it only implies it |
| Pads.ControllerCombineToNesLosesUp | romy-core/src/input.rs:702-719 | a stick pushed up, fused with a stick at rest, no longer reads as up, because the fused axis takes the larger (downward) value |
| Keys.AnyScan | romy-core/src/input.rs:757-765 | the scan lookup is true exactly when some pressed key has that scan code |
| Keys.AnyKey | romy-core/src/input.rs:771-779 | the key-code lookup is true exactly when some pressed key has that key code |
| Keys.Entry | romy-core/src/input.rs:757-765 | the key reported for a scan code has that scan code and is pressed, and no key after it in press order has that scan code, so it is the latest entry; there is none exactly when no pressed key has the scan code |
| Keys.EntryIsDown | romy-core/src/input.rs:757-765 | a scan code has a reported key exactly when `is_down_scan` holds for it |
| Keys.EntryUnique | romy-core/src/input.rs:740-743 | when scan codes are unique, the key reported for a pressed key's scan code is that key |
| Keys.Without | romy-core/src/input.rs:749-751 | `retain` with a different scan code leaves no key with that scan code and never grows the list |
| Keys.WithoutSubset | romy-core/src/input.rs:749-751 | `retain` keeps only keys that were pressed |
| Keys.WithoutEntry | romy-core/src/input.rs:749-751 | removing one scan code leaves the key reported for every other scan code unchanged |
| Keys.WithoutUnique | romy-core/src/input.rs:749-751 | removing a scan code keeps scan codes unique |
| Keys.WithoutAppend | romy-core/src/input.rs:749-751 | filtering a concatenation filters each part |
| Keys.KeyUp | romy-core/src/input.rs:749-751 | after `key_up(s)`, `s` is not down; every other scan code keeps both its down state and its reported key; uniqueness is kept |
| Keys.KeyUpNotDown | romy-core/src/input.rs:749-751 | releasing a scan code that is not down leaves the keyboard unchanged |
| Keys.KeyUpAfterKeyDown | romy-core/src/input.rs:740-751 | `key_up` of the scan code just pressed by `key_down` gives the same keyboard as `key_up` alone: the press is undone, along with any earlier entry for that scan code |
| Keys.PressEntry | romy-core/src/input.rs:740-743 | after pressing a key, its scan code reports that key and every other scan code reports what it did before |
| Keys.PressUnique | romy-core/src/input.rs:740-743 | pressing a key keeps scan codes unique |
| Keys.KeyDown | romy-core/src/input.rs:740-743 | after `key_down(k)`, `k` is the only key with its scan code, and both its scan code and key code read as down; every other scan code reports what it did before; uniqueness is kept |
| Keys.PressAllEntry | romy-core/src/input.rs:822-834 | pressing a list of keys in order reports the list's last key for each of its scan codes, and the old key for every other |
| Keys.PressAllUnique | romy-core/src/input.rs:822-834 | pressing a list of keys keeps scan codes unique |
| Keys.KeyboardCombine | romy-core/src/input.rs:822-834 | the merged keyboard reports `with`'s key for every scan code `with` presses and `self`'s key otherwise; uniqueness is kept |
| Keys.KeyboardCombinePressed | romy-core/src/input.rs:822-834 | a scan code is down on the merged keyboard exactly when it is down on either keyboard |
| Keys.KeyboardCombineUpperBound | romy-core/src/input.rs:822-834 | every scan code down on either operand is down on the merged keyboard |
| Keys.KeyboardCombineKeepsWith | romy-core/src/input.rs:822-834 | each key of a well-formed `with` is reported, with its own key code, for its scan code in the merge |
| Keys.PressAllPrefix | romy-core/src/input.rs:822-834 | pressing again the keys that a keyboard's list starts with rotates them to the end |
| Keys.KeyboardCombineIdempotent | romy-core/src/input.rs:822-834 | a well-formed keyboard merged with itself is unchanged, order included |
| Keys.BindingsTotal | romy-core/src/input.rs:781-802 | every NES button has at least one bound key, and J is bound to both A and B |
| Keys.KeyboardToNesBindings | romy-core/src/input.rs:781-802 | a NES button is down exactly when some key bound to it is down by scan code |
| Keys.KeyboardToNesCombine | romy-core/src/input.rs:781-834 | mapping a merged keyboard to a NES pad is fusing the two keyboards' NES pads |
| Keys.KeyboardToNesNoKeys | romy-core/src/input.rs:781-802 | an idle keyboard maps to the all-released pad |
| Devices.Affinity | romy-core/src/input.rs:84-92 | a device's affinity is never negative, and it is zero exactly for the device's own kind |
| Devices.Convert | romy-core/src/input.rs:74-83 | a conversion exists exactly when an affinity does; it has the requested kind; converting to the own kind gives an identical copy |
| Devices.NesTable | romy-core/src/input.rs:347-360 | a NES pad has affinity 0 and converts to itself unchanged, and has neither affinity nor conversion to the other kinds |
| Devices.ControllerTable | romy-core/src/input.rs:667-682 | a controller has affinity 0 to itself, affinity 1 to a NES pad through its d-pad mapping, and nothing to a keyboard |
| Devices.KeyboardTable | romy-core/src/input.rs:805-820 | a keyboard has affinity 0 to itself, affinity 2 to a NES pad through its key binding, and nothing to a controller |
| Devices.OnlyKeyboardsToKeyboard | romy-core/src/input.rs:805-820 | a device converts to a keyboard exactly when it is a keyboard, and then to itself: NES pads and controllers have no keyboard conversion |
| Devices.DominatesTransitive | romy-core/src/input.rs:41-71 | keeping every input is transitive, so repeated combination keeps the inputs of every step |
| Devices.DeviceCombine | romy-core/src/input.rs:41-71 | the combination keeps `self`'s kind and every input of `self`. When `with` converts to that kind, it also keeps every input of the conversion; when `with` does not, `self` comes back unchanged |
| Devices.DeviceCombineLeast | romy-core/src/input.rs:41-71 | the combination adds nothing of its own: any device of the same kind that keeps every input of both operands keeps every input of their combination |
| Devices.DeviceCombineKeyboard | romy-core/src/input.rs:41-71 | a keyboard takes in another keyboard through the keyboard combination, so the incoming keyboard's entry wins for every scan code it holds; any other device leaves the keyboard unchanged |
| Devices.DeviceCombineSameKind | romy-core/src/input.rs:41-71 | two devices of one kind combine with that kind's own combination |
| Devices.DeviceCombineIdempotent | romy-core/src/input.rs:41-71 | a device with unique scan codes, combined with itself, is unchanged |
| Collection.IsMinAffinityUnique | romy-core/src/input.rs:225-240 | the pool's minimum affinity is uniquely determined |
| Collection.AffinityFrom | romy-core/src/input.rs:225-240 | the aggregate affinity loop ends undefined only when nothing has an affinity; otherwise it ends at a value that some member has and that is at most every member's |
| Collection.CollectionAffinity | romy-core/src/input.rs:225-240 | the pool's affinity is the minimum over the members that have one, and `None` when no member has one |
| Collection.CollectionAffinityCombine | romy-core/src/input.rs:243-249 | the affinity of a joined pool is the smaller of the two pools' affinities |
| Collection.CollectionConvertCombine | romy-core/src/input.rs:205-249 | a joined pool converts to a kind exactly when one of the two pools does |
| Collection.AddInputAffinity | romy-core/src/input.rs:110-112 | adding a device takes the smaller of the pool's affinity and the device's own |
| Collection.Conversions | romy-core/src/input.rs:206-213 | the successful conversions are all of the requested kind, hold every member's conversion and nothing that is not some member's conversion, and are empty exactly when no member has an affinity |
| Collection.ConversionsAppend | romy-core/src/input.rs:206-213 | the conversions of a joined pool are those of the first part followed by those of the second, so they come in pool order |
| Collection.ConversionsAround | romy-core/src/input.rs:206-213 | the conversions of a pool split around any member: those before it, its own, then those after it |
| Collection.ConversionsSingle | romy-core/src/input.rs:207-210 | one device contributes its conversion when it has one, and nothing otherwise |
| Collection.ConversionsOwnKind | romy-core/src/input.rs:206-213 | a pool whose members are all of the requested kind converts member for member to itself |
| Collection.CombineFromBack | romy-core/src/input.rs:214-223 | popping from the end keeps the kind of the last conversion and every input of every conversion of that kind |
| Collection.CombineFromBackEarliest | romy-core/src/input.rs:214-223 | for keyboards the earlier conversion is combined in as `with` and wins: a scan code's entry in the result is the entry of the earliest member that holds it |
| Collection.CombineFromBackAbsent | romy-core/src/input.rs:214-223 | for keyboards a scan code no member holds is absent from the result |
| Collection.CombineFromBackLeast | romy-core/src/input.rs:214-223 | the result is the least device of its kind above every conversion: whatever dominates them all dominates it |
| Collection.CollectionConvert | romy-core/src/input.rs:205-224 | the pool converts to nothing exactly when no member converts; otherwise it gives a device of the requested kind that keeps every member's converted inputs |
| Collection.KeyboardConversionsFromPool | romy-core/src/input.rs:206-213 | every keyboard conversion of a pool is one of the pool's own devices, unchanged |
| Collection.KeyboardConversionsAt | romy-core/src/input.rs:206-213 | converted to a keyboard, a pool keeps exactly its keyboards in pool order: those before a keyboard come first, then that keyboard, then those after it |
| Collection.KeyboardEarliestConversion | romy-core/src/input.rs:206-213 | among a pool's keyboard conversions, a keyboard stands behind only keyboards that do not hold a scan code no earlier keyboard of the pool holds |
| Collection.CollectionConvertKeyboards | romy-core/src/input.rs:205-224 | any pool converted to a keyboard takes each scan code's entry from the earliest of its keyboards that holds it; other kinds of device take no part |
| Collection.CollectionConvertKeyboardsAbsent | romy-core/src/input.rs:205-224 | a pool converts to a keyboard exactly when it holds one, and then holds no entry for a scan code none of its keyboards holds |
| Collection.CollectionConvertLeast | romy-core/src/input.rs:205-224 | the pool's conversion is the least device of the requested kind above every member's conversion |
| Collection.CollectionConvertAffinity | romy-core/src/input.rs:205-240 | a pool converts to a kind exactly when it has an affinity to it |
| Collection.Scan | romy-core/src/input.rs:173-192 | the inner loop of `split` ends holding the earliest device of lowest affinity together with its conversion, or nothing when no device has an affinity |
| Collection.Pick | romy-core/src/input.rs:169-192 | a slot finds nothing exactly when no device has an affinity to its kind; otherwise it finds the earliest device of lowest affinity |
| Collection.PickTieBreak | romy-core/src/input.rs:177-181 | of two devices with equal affinity, the later one is never picked |
| Collection.IsBestUnique | romy-core/src/input.rs:173-192 | the earliest device of lowest affinity is a single position, so the pick is determined |
| Collection.RemoveAt | romy-core/src/input.rs:196-198 | removing position `i` keeps every device before it in place, shifts every device after it down by one, and drops only the device at `i` |
| Collection.SubsequenceTransitive | romy-core/src/input.rs:163-202 | devices keep their relative order through repeated removals |
| Collection.Split | romy-core/src/input.rs:163-202 | one slot per requested kind, each of that kind. The remainder shrinks by the number of filled slots and keeps the pool's order. The first slot is empty exactly when nothing converts, and otherwise holds the best device's conversion. When nothing is claimed, the pool is returned whole and no device fits any slot |
| Collection.SplitAppend | romy-core/src/input.rs:169-199 | splitting over two lists of kinds is splitting over the first, then splitting what is left over the second |
| Collection.SplitSlot | romy-core/src/input.rs:169-199 | every slot, not only the first, is empty exactly when nothing left over from earlier slots converts, and otherwise holds the best remaining device's conversion |
| Collection.SplitEmptyPool | romy-core/src/input.rs:163-202 | an empty pool fills no slot |
| Collection.SplitOne | romy-core/src/input.rs:169-199 | for one slot: nothing is taken and the pool is left whole when no device has an affinity; otherwise the slot gets the conversion of the best device and exactly that device is removed |
| Collection.Merge | romy-core/src/input.rs:144-150 | one pass keeps the filled and empty slots and their kinds; a filled slot keeps its own inputs and gains every input of the device the pass found for it; a keyboard slot takes the found keyboard's entry for every scan code that keyboard holds and keeps its own for the rest |
| Collection.MergeSlotKeyboard | romy-core/src/input.rs:144-150 | for one keyboard slot, the find's entry replaces the slot's for every scan code the found keyboard holds, because the find's keys are pressed last |
| Collection.MergeLeast | romy-core/src/input.rs:144-150 | one pass adds nothing beyond the slot and its find: any device above both is above the merged slot |
| Collection.Absorb | romy-core/src/input.rs:138-153 | the fixpoint loop never fills or empties a slot nor changes its kind; every filled slot keeps its inputs and the inputs of every device any later pass found for it |
| Collection.AbsorbStep | romy-core/src/input.rs:138-153 | one merging pass followed by the rest of the loop keeps the first pass's finds and the later passes' finds |
| Collection.Rounds | romy-core/src/input.rs:138-153 | the finds of the loop's merging passes: each pass claims at least one device, so there are at most as many passes as devices left, and every find has the requested kind |
| Collection.AbsorbMergesRounds | romy-core/src/input.rs:138-153 | the loop is exactly the merge of its passes' finds, one after the other |
| Collection.SurplusNone | romy-core/src/input.rs:138-142 | when the first split takes every device, the loop stops at once and merges nothing |
| Collection.MergeAll | romy-core/src/input.rs:138-153 | folding the passes' finds into the slots keeps one entry per player, keeps every filled and empty slot as it is, and keeps each slot's kind |
| Collection.MergeAllOne | romy-core/src/input.rs:144-150 | merging the finds of one pass is one merge |
| Collection.MergeAllLeast | romy-core/src/input.rs:138-153 | folding the passes adds nothing beyond the slot and the finds: any device above the slot and every find for it is above the folded slot |
| Collection.MergeAllKeyboardKeeps | romy-core/src/input.rs:138-153 | for a keyboard slot, a scan code that no pass's find holds keeps the slot's own entry through the fold |
| Collection.MergeAllKeyboardLast | romy-core/src/input.rs:138-153 | for a keyboard slot, a scan code's entry after the fold is the one from the last pass whose found keyboard holds it |
| Collection.AbsorbStopsOnlyWhenStuck | romy-core/src/input.rs:139-142 | the loop stops only when no remaining device fits any requested kind |
| Collection.Assign | romy-core/src/input.rs:119-156 | one entry per player. A slot is filled exactly when the first split filled it, with a device of the requested kind that keeps the first choice's inputs and those of every surplus device a later pass found for it; nothing is filled when no device fits any kind |
| Collection.AssignMergesRounds | romy-core/src/input.rs:119-156 | the assignment is the first split's slots with every later pass's finds merged in, in order |
| Collection.AssignLeast | romy-core/src/input.rs:119-156 | a filled slot holds nothing beyond the first choice and the surplus finds for it: any device above all of them is above the slot, so the slot is their least upper bound |
| Collection.AssignKeyboardKeeps | romy-core/src/input.rs:119-156 | a keyboard player's device keeps the first choice's entry for every scan code no surplus keyboard holds |
| Collection.AssignKeyboardLast | romy-core/src/input.rs:119-156 | a keyboard player's device reports, for a scan code some surplus keyboard holds, the entry of the last such surplus keyboard |
| Collection.AssignEmptyPool | romy-core/src/input.rs:119-156 | an empty pool leaves every player without a device |
| Game.StepsPerSecondToInterval | romy-core/src/lib.rs:57-59 | for a positive rate, the interval is the number of whole rate-sized parts in one second of nanoseconds (the floor of 10^9 / rate); for a negative rate, wrapped to unsigned, it is 0; it fits in 32 bits |
| Game.InfoNew | romy-core/src/lib.rs:26-44 | the info has the given name, exactly the requested number of players, each asking for the given kind, and the step interval of the given rate: the rounded-down quotient of a second in nanoseconds for a positive rate and 0 for a negative one |
| Game.Requests | romy-core/src/input.rs:120-124 | the requested kinds are the players' input kinds, one per player, in player order |
| Game.StepArgumentsNew | romy-core/src/lib.rs:100-108 | the input of the step arguments is what they were built from |
| Game.PlayerAt | romy-core/src/lib.rs:122-130 | a negative index, or one at or past the end, finds no player; any other index gives the stored slot unchanged |
| Game.InputArgumentsNew | romy-core/src/lib.rs:116-119 | every stored slot is found again by its index |
| Game.AsNes | romy-core/src/lib.rs:141-146 | the NES view is present exactly when the device is a NES pad, and it is that pad |
| Game.AsController | romy-core/src/lib.rs:150-155 | the controller view is present exactly when the device is a controller, and it is that controller |
| Game.AsKeyboard | romy-core/src/lib.rs:159-164 | the keyboard view is present exactly when the device is a keyboard, and it is that keyboard |
| Game.ExactlyOneView | romy-core/src/lib.rs:141-164 | exactly one of the three views of a player's device is present |
| Game.Wrap | romy-core/src/input.rs:127-135 | wrapping the slots keeps which are filled and the device in each |
| Game.GetInputArguments | romy-core/src/input.rs:119-156 | one entry per declared player. A player gets a device exactly when the first split found one, and it is always of the kind the player asked for. It keeps the inputs of the first choice and of every surplus device a later pass found for the player. An empty pool gives nobody a device |
| Game.GetInputArgumentsLeast | romy-core/src/input.rs:119-156 | a player's device holds nothing beyond the first choice and the surplus finds for that player: any device above all of them is above it |
| Game.GetInputArgumentsKeyboardKeeps | romy-core/src/input.rs:119-156 | a keyboard player's keyboard keeps the first choice's entry for every scan code no surplus keyboard holds |
| Game.GetInputArgumentsKeyboardLast | romy-core/src/input.rs:119-156 | a keyboard player's keyboard reports, for a scan code some surplus keyboard holds, the entry of the last such surplus keyboard |
| Game.RequestedViewPresent | romy-core/src/lib.rs:138-164 | a player who got a device can read it through the view of the kind they asked for |
| Scenarios.ControllerServesNesPlayer | romy-core/src/input.rs:119-156 | one NES player and a controller holding A: the player gets a pad holding A and nothing else |
| Scenarios.ControllerTaken | romy-core/src/input.rs:163-202 | the first split takes the lone controller as a pad holding A and leaves nothing |
| Scenarios.IdleKeyboardIsAbsorbed | romy-core/src/input.rs:119-156 | adding an idle keyboard to that pool: the controller is taken first as the closer fit, the keyboard is absorbed on the next pass, and the result does not change |
| Scenarios.ControllerBeforeKeyboard | romy-core/src/input.rs:163-202 | the first split takes the controller (affinity 1) over the keyboard (affinity 2) and leaves the keyboard |
| Scenarios.IdleKeyboardPass | romy-core/src/input.rs:163-202 | an idle keyboard alone is taken as the released pad |
| Scenarios.IdleKeyboardSurplus | romy-core/src/input.rs:138-153 | after the controller is taken, the loop's only pass finds the idle keyboard as a released pad |
| Scenarios.IdleKeyboardMerge | romy-core/src/input.rs:144-150 | merging a released pad into a pad holding A changes nothing |
| Scenarios.TwoControllersFuse | romy-core/src/input.rs:119-156 | two controllers, one holding A and one holding B, for one NES player: the player gets a single pad holding both |
| Scenarios.FirstControllerTaken | romy-core/src/input.rs:173-198 | of two equally fitting controllers the first split takes the earlier one |
| Scenarios.SecondControllerSurplus | romy-core/src/input.rs:138-153 | the loop's only pass finds the second controller, seen as a pad holding B |
| Scenarios.SecondControllerAlone | romy-core/src/input.rs:163-202 | on its own, the second controller is taken for a NES player as a pad holding B |
| Scenarios.TwoControllersMerge | romy-core/src/input.rs:144-150 | folding a pad holding B into a pad holding A gives a pad holding both |
| Scenarios.LaterKeyboardKeyCodeWins | romy-core/src/input.rs:119-156 | two keyboards reporting scan code A under key codes A and Q, for one keyboard player: the player's keyboard reports key code Q, that of the keyboard folded in last |
| Scenarios.FirstKeyboardTaken | romy-core/src/input.rs:173-198 | of two equally fitting keyboards the first split takes the earlier one |
| Scenarios.SecondKeyboardSurplus | romy-core/src/input.rs:138-153 | the loop's only pass finds the second keyboard |
| Scenarios.SecondKeyboardAlone | romy-core/src/input.rs:163-202 | on its own, the second keyboard is taken whole for a keyboard player |
| Scenarios.KeyboardsMerge | romy-core/src/input.rs:144-150 | folding the second keyboard into the first replaces the entry for scan code A |
| Scenarios.KeyboardServesNesPlayer | romy-core/src/input.rs:781-802 | a keyboard holding W gives a NES player a pad with up, and nothing else, pressed |
| Scenarios.KeyboardTaken | romy-core/src/input.rs:163-202 | the first split takes the lone keyboard holding W as a pad holding up and leaves nothing |
| Scenarios.IncompatibleDeviceIsLeft | romy-core/src/input.rs:163-202 | a NES pad cannot serve a keyboard player: the player gets nothing and the pad stays in the remainder |
| Scenarios.NesPadNotTaken | romy-core/src/input.rs:163-202 | a split for a keyboard player takes nothing from a pool holding only a NES pad and leaves the pad in the pool |

## Left out

- Serialisation (the `Serialize` / `Deserialize` derives), `Default`, `Clone`: they carry no logic.
- The field getters and setters of `Nes`, `Controller`, `Key` and `Info`, and the
  `ControllerInit` constructor: the model reads and builds the datatypes directly.
- `InputCollection::new`: it is the empty sequence.
- The numbering of `KeyCode`: the model keeps the fifty codes in declaration order as
  the numbers 0 to 49. Only the equality of codes matters.
- `f32` behaviour: NaN, rounding and signed zeros are not modelled, since axes are `real`.
  In the source `max` ignores a NaN operand, and no comparison with a NaN holds.
- Pads.ControllerCombine, Pads.NesCombine, Pads.ControllerToNes, Keys.IsDownScan,
  Keys.IsDownKey, Keys.Press, Keys.PressAll, Keys.KeyboardToNes, Collection.AddInput,
  Collection.CollectionCombine, Collection.MergeSlot, Collection.Surplus, Game.StepInput:
  these functions carry no ensures of their own. Their properties are the lemmas listed
  next to them in the table.
- Game.PlayerAt: models `usize` as 64 bits. On a 32-bit target, a negative index wraps
  to a different number, which is still past the end of any vector.
- Game.InfoNew: requires a non-negative player count. A negative count becomes a huge
  `usize` capacity, and `Vec::with_capacity` panics on it.
- Game.StepsPerSecondToInterval: requires a non-zero rate, because the source divides
  by zero and panics.
- The draw and audio arguments, the `Game` trait, and everything outside
  `romy-core/src/input.rs` and `romy-core/src/lib.rs`: platform I/O, rendering, audio
  and the host/guest bridge are not part of this model.

=== FILE: collection.dfy ===
/** A pool of input devices and the assignment of its devices to players:
    the aggregate affinity and conversion of a pool, the greedy best-fit split
    of a pool over the players' requested kinds, and the fixpoint loop that folds
    surplus devices into the slots already filled. */
module Collection {
  import opened Optional
  import opened Devices
  import opened Pads
  import opened Keys

  /** An insertion-ordered pool of devices; the order only breaks ties. */
  type InputCollection = seq<Device>

  // ---------------------------------------------------------------------------
  // Building and joining pools

  function AddInput(c: InputCollection, d: Device): InputCollection {
    c + [d]
  }

  function CollectionCombine(c: InputCollection, with: InputCollection): InputCollection {
    c + with
  }

  // ---------------------------------------------------------------------------
  // Aggregate affinity

  /** `r` is the lowest affinity to `t` over the devices of `c` that have one,
      or `None` when none has one. */
  ghost predicate IsMinAffinity(c: InputCollection, t: DeviceType, r: Option<int>) {
    && (r.None? <==> forall j :: 0 <= j < |c| ==> Affinity(c[j], t).None?)
    && (r.Some? ==> exists j :: 0 <= j < |c| && Affinity(c[j], t) == r)
    && (r.Some? ==> forall j :: 0 <= j < |c| && Affinity(c[j], t).Some? ==> r.value <= Affinity(c[j], t).value)
  }

  lemma IsMinAffinityUnique(c: InputCollection, t: DeviceType, r: Option<int>, r': Option<int>)
    requires IsMinAffinity(c, t, r) && IsMinAffinity(c, t, r')
    ensures r == r'
  {
    if r.Some? {
      var j :| 0 <= j < |c| && Affinity(c[j], t) == r;
      var j' :| 0 <= j' < |c| && Affinity(c[j'], t) == r';
    }
  }

  /** One step of the aggregate affinity loop: an undefined running value takes the
      member's affinity as it is; a defined one is replaced only by a strictly lower one. */
  function AffinityStep(acc: Option<int>, test: Option<int>): Option<int> {
    match acc
    case Some(current) => if test.Some? && test.value < current then test else acc
    case None => test
  }

  /** The aggregate affinity loop, from member `i` on, with running value `acc`. */
  function AffinityFrom(c: InputCollection, t: DeviceType, i: nat, acc: Option<int>): (r: Option<int>)
    requires i <= |c|
    ensures r.None? <==> acc.None? && forall j :: i <= j < |c| ==> Affinity(c[j], t).None?
    ensures r.Some? ==> r == acc || exists j :: i <= j < |c| && Affinity(c[j], t) == r
    ensures r.Some? && acc.Some? ==> r.value <= acc.value
    ensures r.Some? ==> forall j :: i <= j < |c| && Affinity(c[j], t).Some? ==> r.value <= Affinity(c[j], t).value
    decreases |c| - i
  {
    if i == |c| then acc
    else AffinityFrom(c, t, i + 1, AffinityStep(acc, Affinity(c[i], t)))
  }

  /** The pool's affinity to `t`: the minimum over the members that have one. */
  function CollectionAffinity(c: InputCollection, t: DeviceType): (r: Option<int>)
    ensures IsMinAffinity(c, t, r)
  {
    AffinityFrom(c, t, 0, None)
  }

  function MinOption(x: Option<int>, y: Option<int>): Option<int> {
    if x.None? then y
    else if y.None? then x
    else if x.value <= y.value then x else y
  }

  /** The affinity of joined pools is the smaller of their affinities. */
  lemma CollectionAffinityCombine(c: InputCollection, with: InputCollection, t: DeviceType)
    ensures CollectionAffinity(CollectionCombine(c, with), t)
         == MinOption(CollectionAffinity(c, t), CollectionAffinity(with, t))
  {
    var both := c + with;
    var m := MinOption(CollectionAffinity(c, t), CollectionAffinity(with, t));
    assert forall j :: 0 <= j < |c| ==> both[j] == c[j];
    assert forall j :: 0 <= j < |with| ==> both[|c| + j] == with[j];
    assert IsMinAffinity(both, t, m) by {
      if m.Some? {
        if m == CollectionAffinity(c, t) {
          var j :| 0 <= j < |c| && Affinity(c[j], t) == m;
          assert Affinity(both[j], t) == m;
        } else {
          var j :| 0 <= j < |with| && Affinity(with[j], t) == m;
          assert Affinity(both[|c| + j], t) == m;
        }
      }
      forall j | 0 <= j < |both| && Affinity(both[j], t).Some?
        ensures m.Some? && m.value <= Affinity(both[j], t).value
      {
        if j >= |c| {
          assert both[j] == with[j - |c|];
        }
      }
    }
    IsMinAffinityUnique(both, t, CollectionAffinity(both, t), m);
  }

  /** Adding a device lowers the pool's affinity to the device's own when that is lower. */
  lemma AddInputAffinity(c: InputCollection, d: Device, t: DeviceType)
    ensures CollectionAffinity(AddInput(c, d), t) == MinOption(CollectionAffinity(c, t), Affinity(d, t))
  {
    CollectionAffinityCombine(c, [d], t);
    assert IsMinAffinity([d], t, Affinity(d, t));
    IsMinAffinityUnique([d], t, CollectionAffinity([d], t), Affinity(d, t));
  }

  // ---------------------------------------------------------------------------
  // Aggregate conversion

  /** Every member that converts to `t`, converted, in pool order. */
  function Conversions(c: InputCollection, t: DeviceType): (r: seq<Device>)
    ensures |r| == 0 <==> forall j :: 0 <= j < |c| ==> Affinity(c[j], t).None?
    ensures forall k :: 0 <= k < |r| ==> TypeOf(r[k]) == t
    ensures forall j :: 0 <= j < |c| && Convert(c[j], t).Some? ==> Convert(c[j], t).value in r
    ensures forall k :: 0 <= k < |r| ==> exists j :: 0 <= j < |c| && Convert(c[j], t) == Some(r[k])
  {
    if |c| == 0 then []
    else
      var rest := Conversions(c[1..], t);
      assert forall j :: 0 < j < |c| ==> c[j] == c[1..][j - 1];
      match Convert(c[0], t)
      case Some(x) => [x] + rest
      case None => rest
  }

  /** The conversions of a joined pool are those of its first part, then those of its second. */
  lemma {:induction false} ConversionsAppend(a: InputCollection, b: InputCollection, t: DeviceType)
    ensures Conversions(a + b, t) == Conversions(a, t) + Conversions(b, t)
    decreases |a|
  {
    if |a| > 0 {
      assert (a + b)[1..] == a[1..] + b;
      ConversionsAppend(a[1..], b, t);
    } else {
      assert a + b == b;
    }
  }

  /** The conversions of a pool split around any one of its members. */
  lemma ConversionsAround(c: InputCollection, j: nat, t: DeviceType)
    requires j < |c|
    ensures Conversions(c, t) ==
            Conversions(c[..j], t) + Conversions([c[j]], t) + Conversions(c[j + 1..], t)
  {
    assert c == c[..j] + ([c[j]] + c[j + 1..]);
    ConversionsAppend(c[..j], [c[j]] + c[j + 1..], t);
    ConversionsAppend([c[j]], c[j + 1..], t);
  }

  /** A single device contributes its own conversion, if it has one. */
  lemma ConversionsSingle(d: Device, t: DeviceType)
    ensures Conversions([d], t) == if Convert(d, t).Some? then [Convert(d, t).value] else []
  {
    assert [d][1..] == [];
  }

  /** A pool all of kind `t` converts member for member to itself. */
  lemma {:induction false} ConversionsOwnKind(c: InputCollection, t: DeviceType)
    requires forall j :: 0 <= j < |c| ==> TypeOf(c[j]) == t
    ensures Conversions(c, t) == c
    decreases |c|
  {
    if |c| > 0 {
      ConversionsOwnKind(c[1..], t);
      assert c == [c[0]] + c[1..];
    }
  }

  /** The pop loop of the aggregate conversion: start from the last conversion and
      combine the earlier ones into it, back to front. */
  function CombineFromBack(cs: seq<Device>): (r: Device)
    requires |cs| > 0
    ensures TypeOf(r) == TypeOf(cs[|cs| - 1])
    ensures forall k :: 0 <= k < |cs| && TypeOf(cs[k]) == TypeOf(r) ==> Dominates(cs[k], r)
  {
    if |cs| == 1 then cs[0]
    else
      var acc := CombineFromBack(cs[1..]);
      var r := DeviceCombine(acc, cs[0]);
      assert forall k :: 1 <= k < |cs| ==> cs[k] == cs[1..][k - 1];
      forall k | 1 <= k < |cs| && TypeOf(cs[k]) == TypeOf(r)
        ensures Dominates(cs[k], r)
      {
        DominatesTransitive(cs[k], acc, r);
      }
      r
  }

  /** For keyboards the fold lets earlier members win: a scan code's entry in the result
      is the one of the earliest member that holds that scan code. */
  lemma {:induction false} CombineFromBackEarliest(cs: seq<Device>, s: KeyCode, j: nat)
    requires |cs| > 0 && forall k :: 0 <= k < |cs| ==> cs[k].KeyboardDevice?
    requires j < |cs| && Entry(cs[j].keyboard.pressed, s).Some?
    requires forall k :: 0 <= k < j ==> Entry(cs[k].keyboard.pressed, s).None?
    ensures CombineFromBack(cs).KeyboardDevice?
    ensures Entry(CombineFromBack(cs).keyboard.pressed, s) == Entry(cs[j].keyboard.pressed, s)
    decreases |cs|
  {
    if |cs| > 1 {
      var acc := CombineFromBack(cs[1..]);
      DeviceCombineSameKind(acc, cs[0]);
      if j > 0 {
        CombineFromBackEarliest(cs[1..], s, j - 1);
      }
    }
  }

  /** For keyboards, a scan code no member holds is absent from the result. */
  lemma {:induction false} CombineFromBackAbsent(cs: seq<Device>, s: KeyCode)
    requires |cs| > 0 && forall k :: 0 <= k < |cs| ==> cs[k].KeyboardDevice?
    requires forall k :: 0 <= k < |cs| ==> Entry(cs[k].keyboard.pressed, s).None?
    ensures CombineFromBack(cs).KeyboardDevice?
    ensures Entry(CombineFromBack(cs).keyboard.pressed, s).None?
    decreases |cs|
  {
    if |cs| > 1 {
      var acc := CombineFromBack(cs[1..]);
      DeviceCombineSameKind(acc, cs[0]);
      CombineFromBackAbsent(cs[1..], s);
    }
  }

  /** The fold is the least device of its kind above every member: anything of that kind
      that dominates each member dominates the result. */
  lemma {:induction false} CombineFromBackLeast(cs: seq<Device>, e: Device)
    requires |cs| > 0 && forall k :: 0 <= k < |cs| ==> TypeOf(cs[k]) == TypeOf(e) && Dominates(cs[k], e)
    ensures Dominates(CombineFromBack(cs), e)
    decreases |cs|
  {
    if |cs| > 1 {
      var acc := CombineFromBack(cs[1..]);
      CombineFromBackLeast(cs[1..], e);
      DeviceCombineLeast(acc, cs[0], e);
    }
  }

  /** The pool converted to `t`: `None` exactly when no member converts; otherwise a
      device of kind `t` that keeps every input of every member's conversion. */
  function CollectionConvert(c: InputCollection, t: DeviceType): (r: Option<Device>)
    ensures r.None? <==> forall j :: 0 <= j < |c| ==> Affinity(c[j], t).None?
    ensures r.Some? ==> TypeOf(r.value) == t
    ensures r.Some? ==> forall j :: 0 <= j < |c| && Convert(c[j], t).Some? ==> Dominates(Convert(c[j], t).value, r.value)
  {
    var cs := Conversions(c, t);
    if |cs| == 0 then None
    else
      var r := CombineFromBack(cs);
      assert forall k :: 0 <= k < |cs| ==> Dominates(cs[k], r);
      Some(r)
  }

  /** Converted to a keyboard, a pool keeps exactly its keyboards: the conversions are the
      keyboards before position `j`, then the keyboard at `j`, then those after it. */
  lemma {:induction false} KeyboardConversionsAt(c: InputCollection, j: nat)
    requires j < |c| && c[j].KeyboardDevice?
    ensures var before := Conversions(c[..j], KeyboardType);
            && Conversions(c, KeyboardType) == before + [c[j]] + Conversions(c[j + 1..], KeyboardType)
            && forall k :: 0 <= k < |before| ==> exists m :: 0 <= m < j && c[m] == before[k]
  {
    var before := Conversions(c[..j], KeyboardType);
    ConversionsAround(c, j, KeyboardType);
    OnlyKeyboardsToKeyboard(c[j]);
    ConversionsSingle(c[j], KeyboardType);
    KeyboardConversionsFromPool(c[..j]);
    forall k | 0 <= k < |before| ensures exists m :: 0 <= m < j && c[m] == before[k] {
      var m :| 0 <= m < j && c[..j][m] == before[k];
      assert c[m] == c[..j][m];
    }
  }

  /** Every keyboard conversion of a pool is one of the pool's own devices, unchanged. */
  lemma KeyboardConversionsFromPool(c: InputCollection)
    ensures var cs := Conversions(c, KeyboardType);
            forall k :: 0 <= k < |cs| ==> exists m :: 0 <= m < |c| && c[m] == cs[k]
  {
    var cs := Conversions(c, KeyboardType);
    forall k | 0 <= k < |cs| ensures exists m :: 0 <= m < |c| && c[m] == cs[k] {
      var m :| 0 <= m < |c| && Convert(c[m], KeyboardType) == Some(cs[k]);
      OnlyKeyboardsToKeyboard(c[m]);
    }
  }

  /** A pool converted to a keyboard: a scan code's entry comes from the earliest
      keyboard of the pool that holds it; the other kinds of device take no part. */
  lemma CollectionConvertKeyboards(c: InputCollection, s: KeyCode, j: nat)
    requires j < |c| && c[j].KeyboardDevice? && Entry(c[j].keyboard.pressed, s).Some?
    requires forall k :: 0 <= k < j && c[k].KeyboardDevice? ==> Entry(c[k].keyboard.pressed, s).None?
    ensures CollectionConvert(c, KeyboardType).Some?
    ensures CollectionConvert(c, KeyboardType).value.KeyboardDevice?
    ensures Entry(CollectionConvert(c, KeyboardType).value.keyboard.pressed, s) == Entry(c[j].keyboard.pressed, s)
  {
    var cs := Conversions(c, KeyboardType);
    var b := KeyboardEarliestConversion(c, s, j);
    CombineFromBackEarliest(cs, s, b);
    CollectionConvertUnfold(c, KeyboardType);
  }

  /** The keyboard at `j` sits among the keyboard conversions behind only keyboards that do
      not hold `s`; `b` is its place there. */
  lemma KeyboardEarliestConversion(c: InputCollection, s: KeyCode, j: nat) returns (b: nat)
    requires j < |c| && c[j].KeyboardDevice? && Entry(c[j].keyboard.pressed, s).Some?
    requires forall k :: 0 <= k < j && c[k].KeyboardDevice? ==> Entry(c[k].keyboard.pressed, s).None?
    ensures var cs := Conversions(c, KeyboardType);
            && b < |cs| && cs[b] == c[j]
            && (forall k :: 0 <= k < |cs| ==> cs[k].KeyboardDevice?)
            && (forall k :: 0 <= k < b ==> Entry(cs[k].keyboard.pressed, s).None?)
  {
    KeyboardConversionsAt(c, j);
    var before := Conversions(c[..j], KeyboardType);
    var cs := Conversions(c, KeyboardType);
    b := |before|;
    assert cs[b] == c[j];
    forall k | 0 <= k < |cs| ensures cs[k].KeyboardDevice? {
      assert TypeOf(cs[k]) == KeyboardType;
    }
    forall k | 0 <= k < b ensures Entry(cs[k].keyboard.pressed, s).None? {
      var m :| 0 <= m < j && c[m] == before[k];
      assert cs[k] == before[k];
    }
  }

  /** A pool with conversions converts to their combination. */
  lemma CollectionConvertUnfold(c: InputCollection, t: DeviceType)
    ensures |Conversions(c, t)| > 0 ==> CollectionConvert(c, t) == Some(CombineFromBack(Conversions(c, t)))
  {}

  /** A pool converted to a keyboard: it converts exactly when it holds a keyboard, and a
      scan code none of its keyboards holds is absent. */
  lemma CollectionConvertKeyboardsAbsent(c: InputCollection, s: KeyCode)
    requires forall k :: 0 <= k < |c| && c[k].KeyboardDevice? ==> Entry(c[k].keyboard.pressed, s).None?
    ensures CollectionConvert(c, KeyboardType).Some? <==> exists k :: 0 <= k < |c| && c[k].KeyboardDevice?
    ensures CollectionConvert(c, KeyboardType).Some? ==>
              && CollectionConvert(c, KeyboardType).value.KeyboardDevice?
              && Entry(CollectionConvert(c, KeyboardType).value.keyboard.pressed, s).None?
  {
    forall k | 0 <= k < |c| ensures Affinity(c[k], KeyboardType).Some? <==> c[k].KeyboardDevice? {
      OnlyKeyboardsToKeyboard(c[k]);
    }
    var cs := Conversions(c, KeyboardType);
    if |cs| > 0 {
      forall k | 0 <= k < |cs| ensures cs[k].KeyboardDevice? && Entry(cs[k].keyboard.pressed, s).None? {
        var m :| 0 <= m < |c| && Convert(c[m], KeyboardType) == Some(cs[k]);
        OnlyKeyboardsToKeyboard(c[m]);
      }
      CombineFromBackAbsent(cs, s);
    }
  }

  /** The pool's conversion is the least device of kind `t` above every member's conversion. */
  lemma CollectionConvertLeast(c: InputCollection, t: DeviceType, e: Device)
    requires TypeOf(e) == t
    requires forall j :: 0 <= j < |c| && Convert(c[j], t).Some? ==> Dominates(Convert(c[j], t).value, e)
    ensures CollectionConvert(c, t).Some? ==> Dominates(CollectionConvert(c, t).value, e)
  {
    var cs := Conversions(c, t);
    if |cs| > 0 {
      forall k | 0 <= k < |cs| ensures TypeOf(cs[k]) == TypeOf(e) && Dominates(cs[k], e) {
        var j :| 0 <= j < |c| && Convert(c[j], t) == Some(cs[k]);
      }
      CombineFromBackLeast(cs, e);
    }
  }

  /** A pool converts exactly when it has an affinity. */
  lemma CollectionConvertAffinity(c: InputCollection, t: DeviceType)
    ensures CollectionConvert(c, t).Some? <==> CollectionAffinity(c, t).Some?
  {}

  /** A joined pool converts exactly when one of its parts does. */
  lemma CollectionConvertCombine(c: InputCollection, with: InputCollection, t: DeviceType)
    ensures CollectionConvert(CollectionCombine(c, with), t).Some?
        <==> CollectionConvert(c, t).Some? || CollectionConvert(with, t).Some?
  {
    var both := c + with;
    assert forall j :: 0 <= j < |c| ==> both[j] == c[j];
    assert forall j :: 0 <= j < |with| ==> both[|c| + j] == with[j];
    assert forall j :: |c| <= j < |both| ==> both[j] == with[j - |c|];
  }

  // ---------------------------------------------------------------------------
  // Picking the best device for one slot

  /** A device found for a slot: its position in the working list, its affinity, its conversion. */
  datatype Candidate = Candidate(index: nat, affinity: int, device: Device)

  /** Position `k` holds the earliest of the lowest affinities to `t` among the first `n` devices. */
  ghost predicate BestUpTo(pool: seq<Device>, t: DeviceType, k: int, n: int) {
    && 0 <= k < n <= |pool|
    && Affinity(pool[k], t).Some?
    && (forall j :: 0 <= j < n && Affinity(pool[j], t).Some? ==> Affinity(pool[k], t).value <= Affinity(pool[j], t).value)
    && (forall j :: 0 <= j < k && Affinity(pool[j], t).Some? ==> Affinity(pool[k], t).value < Affinity(pool[j], t).value)
  }

  /** Position `k` holds the device a slot of kind `t` should take from `pool`. */
  ghost predicate IsBest(pool: seq<Device>, t: DeviceType, k: int) {
    BestUpTo(pool, t, k, |pool|)
  }

  /** What the scan has established after looking at the first `i` devices. */
  ghost predicate ScanInvariant(pool: seq<Device>, t: DeviceType, i: nat, best: Option<Candidate>) {
    && i <= |pool|
    && match best
       case None => forall j :: 0 <= j < i ==> Affinity(pool[j], t).None?
       case Some(c) =>
         && BestUpTo(pool, t, c.index, i)
         && Affinity(pool[c.index], t) == Some(c.affinity)
         && Convert(pool[c.index], t) == Some(c.device)
  }

  /** The inner loop of `split`: a device replaces the current candidate only with a
      strictly lower affinity (so the earliest of equal scores stays), and only when
      it converts. */
  function Scan(pool: seq<Device>, t: DeviceType, i: nat, best: Option<Candidate>): (r: Option<Candidate>)
    requires ScanInvariant(pool, t, i, best)
    ensures ScanInvariant(pool, t, |pool|, r)
    decreases |pool| - i
  {
    if i == |pool| then best
    else
      var affinity := Affinity(pool[i], t);
      var found := Convert(pool[i], t);
      if affinity.Some? && (best.None? || affinity.value < best.value.affinity) && found.Some? then
        Scan(pool, t, i + 1, Some(Candidate(i, affinity.value, found.value)))
      else
        Scan(pool, t, i + 1, best)
  }

  /** The device a slot of kind `t` takes from `pool`, if any. */
  function Pick(pool: seq<Device>, t: DeviceType): (r: Option<Candidate>)
    ensures r.None? <==> forall j :: 0 <= j < |pool| ==> Affinity(pool[j], t).None?
    ensures r.Some? ==> IsBest(pool, t, r.value.index) && Convert(pool[r.value.index], t) == Some(r.value.device)
  {
    Scan(pool, t, 0, None)
  }

  /** Two devices with the same affinity: the later one is never picked over the earlier. */
  lemma PickTieBreak(pool: seq<Device>, t: DeviceType, i: nat, j: nat)
    requires i < j < |pool|
    requires Affinity(pool[i], t).Some? && Affinity(pool[i], t) == Affinity(pool[j], t)
    ensures Pick(pool, t).Some? && Pick(pool, t).value.index != j
  {}

  /** The best position for a slot is unique. */
  lemma IsBestUnique(pool: seq<Device>, t: DeviceType, k: int, k': int)
    requires IsBest(pool, t, k) && IsBest(pool, t, k')
    ensures k == k'
  {}

  // ---------------------------------------------------------------------------
  // Order of the working list

  /** `a` is `b` with some entries deleted. */
  ghost predicate IsSubsequence(a: seq<Device>, b: seq<Device>)
    decreases |b|
  {
    if |a| == 0 then true
    else if |b| == 0 then false
    else (a[0] == b[0] && IsSubsequence(a[1..], b[1..])) || IsSubsequence(a, b[1..])
  }

  lemma {:induction false} SubsequenceReflexive(a: seq<Device>)
    ensures IsSubsequence(a, a)
    decreases |a|
  {
    if |a| > 0 {
      SubsequenceReflexive(a[1..]);
    }
  }

  lemma {:induction false} SubsequenceTransitive(a: seq<Device>, b: seq<Device>, c: seq<Device>)
    requires IsSubsequence(a, b) && IsSubsequence(b, c)
    ensures IsSubsequence(a, c)
    decreases |c|
  {
    if |a| > 0 {
      if IsSubsequence(b, c[1..]) {
        SubsequenceTransitive(a, b, c[1..]);
      } else if a[0] == b[0] && IsSubsequence(a[1..], b[1..]) {
        SubsequenceTransitive(a[1..], b[1..], c[1..]);
      } else {
        SubsequenceTransitive(a, b[1..], c[1..]);
      }
    }
  }

  function RemoveAt(s: seq<Device>, i: nat): (r: seq<Device>)
    requires i < |s|
    ensures |r| == |s| - 1
    ensures forall j :: 0 <= j < i ==> r[j] == s[j]
    ensures forall j :: i <= j < |r| ==> r[j] == s[j + 1]
    ensures IsSubsequence(r, s)
  {
    RemoveAtSubsequence(s, i);
    s[..i] + s[i + 1..]
  }

  lemma {:induction false} RemoveAtSubsequence(s: seq<Device>, i: nat)
    requires i < |s|
    ensures IsSubsequence(s[..i] + s[i + 1..], s)
    decreases i
  {
    if i == 0 {
      assert s[..0] + s[1..] == s[1..];
      SubsequenceReflexive(s[1..]);
    } else {
      var r := s[..i] + s[i + 1..];
      RemoveAtSubsequence(s[1..], i - 1);
      assert r[1..] == s[1..][..i - 1] + s[1..][i..];
      assert r[0] == s[0];
    }
  }

  // ---------------------------------------------------------------------------
  // Splitting a pool over the players

  datatype SplitResult = SplitResult(found: seq<Option<Device>>, remaining: InputCollection)

  /** `split`: each requested kind, in order, takes the best remaining device
      converted to that kind, and that device leaves the working list; the
      devices nobody took are the remainder, in their original order. */
  function Split(pool: InputCollection, into: seq<DeviceType>): (r: SplitResult)
    ensures |r.found| == |into|
    ensures |r.remaining| + CountSome(r.found) == |pool|
    ensures IsSubsequence(r.remaining, pool)
    ensures forall i :: 0 <= i < |into| && r.found[i].Some? ==> TypeOf(r.found[i].value) == into[i]
    ensures |into| > 0 ==> (r.found[0].None? <==> forall j :: 0 <= j < |pool| ==> Affinity(pool[j], into[0]).None?)
    ensures |into| > 0 && r.found[0].Some? ==>
              exists k :: IsBest(pool, into[0], k) && Convert(pool[k], into[0]) == r.found[0]
    ensures CountSome(r.found) == 0 ==>
              && r.remaining == pool
              && forall i, j :: 0 <= i < |into| && 0 <= j < |pool| ==> Affinity(pool[j], into[i]).None?
    decreases |into|
  {
    if |into| == 0 then
      SubsequenceReflexive(pool);
      SplitResult([], pool)
    else
      match Pick(pool, into[0])
      case None =>
        var rest := Split(pool, into[1..]);
        var r := SplitResult([None] + rest.found, rest.remaining);
        assert r.found[1..] == rest.found;
        r
      case Some(c) =>
        var smaller := RemoveAt(pool, c.index);
        var rest := Split(smaller, into[1..]);
        SubsequenceTransitive(rest.remaining, smaller, pool);
        var r := SplitResult([Some(c.device)] + rest.found, rest.remaining);
        assert r.found[1..] == rest.found;
        r
  }

  /** One slot: nothing is taken when no device has an affinity to its kind; otherwise
      the slot gets the conversion of the best device, and exactly that device leaves. */
  lemma SplitOne(pool: InputCollection, t: DeviceType)
    ensures (forall j :: 0 <= j < |pool| ==> Affinity(pool[j], t).None?) ==>
              Split(pool, [t]) == SplitResult([None], pool)
    ensures forall k :: IsBest(pool, t, k) ==>
              Split(pool, [t]) == SplitResult([Convert(pool[k], t)], RemoveAt(pool, k))
  {
    var tail: seq<DeviceType> := [t][1..];
    assert tail == [];
    forall k | IsBest(pool, t, k)
      ensures Split(pool, [t]) == SplitResult([Convert(pool[k], t)], RemoveAt(pool, k))
    {
      var c := Pick(pool, t).value;
      IsBestUnique(pool, t, k, c.index);
    }
  }

  lemma ConcatAssociative<T>(a: seq<T>, b: seq<T>, c: seq<T>)
    ensures a + (b + c) == (a + b) + c
  {}

  /** Splitting over `p + q` is splitting over `p`, then splitting what is left over `q`. */
  lemma {:induction false} SplitAppend(pool: InputCollection, p: seq<DeviceType>, q: seq<DeviceType>)
    ensures var first := Split(pool, p);
            var second := Split(first.remaining, q);
            Split(pool, p + q) == SplitResult(first.found + second.found, second.remaining)
    decreases |p|
  {
    if |p| == 0 {
      assert p + q == q;
    } else {
      var pq := p + q;
      assert pq[0] == p[0];
      assert pq[1..] == p[1..] + q;
      var smaller := match Pick(pool, p[0]) case None => pool case Some(c) => RemoveAt(pool, c.index);
      var slot := match Pick(pool, p[0]) case None => None case Some(c) => Some(c.device);
      var inner := Split(smaller, p[1..]);
      var second := Split(inner.remaining, q);
      assert Split(pool, p) == SplitResult([slot] + inner.found, inner.remaining);
      assert Split(pool, pq) == SplitResult([slot] + Split(smaller, pq[1..]).found, Split(smaller, pq[1..]).remaining);
      SplitAppend(smaller, p[1..], q);
      ConcatAssociative([slot], inner.found, second.found);
    }
  }

  /** The working list slot `i` chooses from: what the first `i` slots left. */
  function WorkingList(pool: InputCollection, into: seq<DeviceType>, i: nat): InputCollection
    requires i <= |into|
  {
    Split(pool, into[..i]).remaining
  }

  /** Every slot, not only the first, takes the best device of its working list:
      it is empty exactly when nothing left converts to its kind, and otherwise holds
      the conversion of the earliest lowest-affinity device. */
  lemma SplitSlot(pool: InputCollection, into: seq<DeviceType>, i: nat)
    requires i < |into|
    ensures var w := WorkingList(pool, into, i);
            var slot := Split(pool, into).found[i];
            && (slot.None? <==> forall j :: 0 <= j < |w| ==> Affinity(w[j], into[i]).None?)
            && (slot.Some? ==> exists k :: IsBest(w, into[i], k) && Convert(w[k], into[i]) == slot)
  {
    assert into == into[..i] + into[i..];
    SplitAppend(pool, into[..i], into[i..]);
    var first := Split(pool, into[..i]);
    assert Split(pool, into).found[i] == Split(first.remaining, into[i..]).found[0];
  }

  /** An empty pool leaves every slot empty. */
  lemma SplitEmptyPool(into: seq<DeviceType>)
    ensures forall i :: 0 <= i < |into| ==> Split([], into).found[i].None?
  {}

  // ---------------------------------------------------------------------------
  // Folding surplus devices into filled slots

  /** One pass of the loop: each filled slot absorbs what the new split found for it;
      empty slots stay empty. */
  function Merge(result: seq<Option<Device>>, found: seq<Option<Device>>): (r: seq<Option<Device>>)
    requires |found| == |result|
    ensures |r| == |result|
    ensures forall i :: 0 <= i < |r| ==> (r[i].Some? <==> result[i].Some?)
    ensures forall i :: 0 <= i < |r| && r[i].Some? ==> TypeOf(r[i].value) == TypeOf(result[i].value)
    ensures forall i :: 0 <= i < |r| && r[i].Some? ==> Dominates(result[i].value, r[i].value)
    ensures forall i :: 0 <= i < |r| && r[i].Some? && found[i].Some? && TypeOf(found[i].value) == TypeOf(result[i].value) ==>
              Dominates(found[i].value, r[i].value)
    ensures forall i :: 0 <= i < |r| && found[i].None? ==> r[i] == result[i]
    ensures forall i :: 0 <= i < |r| && HoldsKeyboard(result[i]) ==> HoldsKeyboard(r[i])
    ensures forall i, s :: 0 <= i < |r| && HoldsKeyboard(result[i]) ==>
              HoldsKeyboard(r[i]) &&
              Entry(r[i].value.keyboard.pressed, s) ==
                if HoldsScan(found[i], s) then Entry(found[i].value.keyboard.pressed, s)
                else Entry(result[i].value.keyboard.pressed, s)
  {
    forall i | 0 <= i < |result| && result[i].Some? {
      DominatesReflexive(result[i].value);
    }
    var r := seq(|result|, i requires 0 <= i < |result| => MergeSlot(result[i], found[i]));
    forall i, s | 0 <= i < |r| && HoldsKeyboard(result[i])
      ensures HoldsKeyboard(r[i]) &&
              Entry(r[i].value.keyboard.pressed, s) ==
                if HoldsScan(found[i], s) then Entry(found[i].value.keyboard.pressed, s)
                else Entry(result[i].value.keyboard.pressed, s)
    {
      MergeSlotKeyboard(result[i], found[i], s);
    }
    forall i | 0 <= i < |r| && HoldsKeyboard(result[i]) ensures HoldsKeyboard(r[i]) {
      MergeSlotKeyboard(result[i], found[i], 0);
    }
    r
  }

  /** One slot of a pass: a filled slot takes in its find; an empty slot stays empty. */
  function MergeSlot(slot: Option<Device>, find: Option<Device>): Option<Device> {
    if slot.Some? && find.Some? then Some(DeviceCombine(slot.value, find.value)) else slot
  }

  /** A keyboard slot takes the find's entry for every scan code the find holds. */
  lemma MergeSlotKeyboard(slot: Option<Device>, find: Option<Device>, s: KeyCode)
    requires HoldsKeyboard(slot)
    ensures HoldsKeyboard(MergeSlot(slot, find))
    ensures Entry(MergeSlot(slot, find).value.keyboard.pressed, s) ==
              if HoldsScan(find, s) then Entry(find.value.keyboard.pressed, s)
              else Entry(slot.value.keyboard.pressed, s)
  {
    if find.Some? {
      DeviceCombineKeyboard(slot.value, find.value, s);
    }
  }

  /** A slot or find holding a keyboard. */
  predicate HoldsKeyboard(o: Option<Device>) {
    o.Some? && o.value.KeyboardDevice?
  }

  /** A slot or find holding a keyboard with an entry for scan code `s`. */
  predicate HoldsScan(o: Option<Device>, s: KeyCode) {
    HoldsKeyboard(o) && Entry(o.value.keyboard.pressed, s).Some?
  }

  /** A pass adds nothing beyond the slot and its find: any device that dominates both
      dominates the merged slot. */
  lemma MergeLeast(result: seq<Option<Device>>, found: seq<Option<Device>>, i: nat, e: Device)
    requires |found| == |result| && i < |result|
    requires result[i].Some? && Dominates(result[i].value, e)
    requires found[i].Some? ==> Dominates(found[i].value, e)
    ensures Merge(result, found)[i].Some? && Dominates(Merge(result, found)[i].value, e)
  {
    if found[i].Some? {
      DeviceCombineLeast(result[i].value, found[i].value, e);
    }
  }

  /** What each later pass of the loop finds, one list per pass that claims something.
      Every such pass claims at least one device, so there are at most as many passes
      as devices left. */
  function Rounds(remaining: InputCollection, players: seq<DeviceType>): (rounds: seq<seq<Option<Device>>>)
    ensures |rounds| <= |remaining|
    ensures forall k :: 0 <= k < |rounds| ==> |rounds[k]| == |players| && CountSome(rounds[k]) > 0
    ensures forall k, i :: 0 <= k < |rounds| && 0 <= i < |players| && rounds[k][i].Some? ==>
              TypeOf(rounds[k][i].value) == players[i]
    decreases |remaining|
  {
    var next := Split(remaining, players);
    if |next.remaining| == |remaining| then []
    else
      var rest := Rounds(next.remaining, players);
      var rounds := [next.found] + rest;
      assert forall k :: 0 <= k < |rounds| ==> |rounds[k]| == |players| && CountSome(rounds[k]) > 0 by {
        forall k | 0 <= k < |rounds| ensures |rounds[k]| == |players| && CountSome(rounds[k]) > 0 {
          if k > 0 { assert rounds[k] == rest[k - 1]; }
        }
      }
      assert forall k, i :: 0 <= k < |rounds| && 0 <= i < |players| && rounds[k][i].Some? ==>
               TypeOf(rounds[k][i].value) == players[i] by {
        forall k, i | 0 <= k < |rounds| && 0 <= i < |players| && rounds[k][i].Some?
          ensures TypeOf(rounds[k][i].value) == players[i]
        {
          if k > 0 { assert rounds[k] == rest[k - 1]; }
        }
      }
      rounds
  }

  /** Merging the passes' finds into the slots, one pass after the other. */
  function MergeAll(result: seq<Option<Device>>, rounds: seq<seq<Option<Device>>>): (r: seq<Option<Device>>)
    requires forall k :: 0 <= k < |rounds| ==> |rounds[k]| == |result|
    ensures |r| == |result|
    ensures forall i :: 0 <= i < |r| ==> (r[i].Some? <==> result[i].Some?)
    ensures forall i :: 0 <= i < |r| && r[i].Some? ==> TypeOf(r[i].value) == TypeOf(result[i].value)
    decreases |rounds|
  {
    if |rounds| == 0 then result else MergeAll(Merge(result, rounds[0]), rounds[1..])
  }

  /** Folding the passes adds nothing beyond the slot and the finds: any device that
      dominates the slot and every find for it dominates the folded slot. */
  lemma {:induction false} MergeAllLeast(result: seq<Option<Device>>, rounds: seq<seq<Option<Device>>>, i: nat, e: Device)
    requires forall k :: 0 <= k < |rounds| ==> |rounds[k]| == |result|
    requires i < |result| && result[i].Some? && Dominates(result[i].value, e)
    requires forall k :: 0 <= k < |rounds| && rounds[k][i].Some? ==> Dominates(rounds[k][i].value, e)
    ensures MergeAll(result, rounds)[i].Some? && Dominates(MergeAll(result, rounds)[i].value, e)
    decreases |rounds|
  {
    if |rounds| > 0 {
      MergeLeast(result, rounds[0], i, e);
      var rest := rounds[1..];
      assert forall k :: 0 <= k < |rest| ==> rest[k] == rounds[k + 1];
      MergeAllLeast(Merge(result, rounds[0]), rest, i, e);
    }
  }

  /** For a keyboard slot, a scan code no pass's find holds keeps the slot's own entry. */
  lemma {:induction false} MergeAllKeyboardKeeps(result: seq<Option<Device>>, rounds: seq<seq<Option<Device>>>, i: nat, s: KeyCode)
    requires forall k :: 0 <= k < |rounds| ==> |rounds[k]| == |result|
    requires i < |result| && HoldsKeyboard(result[i])
    requires forall k :: 0 <= k < |rounds| ==> !HoldsScan(rounds[k][i], s)
    ensures HoldsKeyboard(MergeAll(result, rounds)[i])
    ensures Entry(MergeAll(result, rounds)[i].value.keyboard.pressed, s) == Entry(result[i].value.keyboard.pressed, s)
    decreases |rounds|
  {
    if |rounds| > 0 {
      var rest := rounds[1..];
      assert forall k :: 0 <= k < |rest| ==> rest[k] == rounds[k + 1];
      MergeAllKeyboardKeeps(Merge(result, rounds[0]), rest, i, s);
    }
  }

  /** For a keyboard slot, a scan code's entry after the fold comes from the last pass whose
      find holds it: later keyboards are pressed last and override earlier ones. */
  lemma {:induction false} MergeAllKeyboardLast(result: seq<Option<Device>>, rounds: seq<seq<Option<Device>>>, i: nat, s: KeyCode, k: nat)
    requires forall k :: 0 <= k < |rounds| ==> |rounds[k]| == |result|
    requires i < |result| && HoldsKeyboard(result[i])
    requires k < |rounds| && HoldsScan(rounds[k][i], s)
    requires forall k' :: k < k' < |rounds| ==> !HoldsScan(rounds[k'][i], s)
    ensures HoldsKeyboard(MergeAll(result, rounds)[i])
    ensures Entry(MergeAll(result, rounds)[i].value.keyboard.pressed, s) == Entry(rounds[k][i].value.keyboard.pressed, s)
    decreases |rounds|
  {
    var merged := Merge(result, rounds[0]);
    var rest := rounds[1..];
    assert forall j :: 0 <= j < |rest| ==> rest[j] == rounds[j + 1];
    if k == 0 {
      MergeAllKeyboardKeeps(merged, rest, i, s);
    } else {
      MergeAllKeyboardLast(merged, rest, i, s, k - 1);
    }
  }

  /** The loop of `get_input_arguments`: split what is left again; stop when the pass
      claims nothing, otherwise merge and go on with the smaller remainder. Devices
      claimed for an empty slot are consumed without effect. Every filled slot ends up
      keeping its own inputs and those of every device a later pass finds for it. */
  function Absorb(result: seq<Option<Device>>, remaining: InputCollection, players: seq<DeviceType>)
    : (r: seq<Option<Device>>)
    requires |result| == |players|
    requires forall i :: 0 <= i < |result| && result[i].Some? ==> TypeOf(result[i].value) == players[i]
    ensures |r| == |players|
    ensures forall i :: 0 <= i < |r| ==> (r[i].Some? <==> result[i].Some?)
    ensures forall i :: 0 <= i < |r| && r[i].Some? ==> TypeOf(r[i].value) == players[i]
    ensures forall i :: 0 <= i < |r| && r[i].Some? ==> Dominates(result[i].value, r[i].value)
    ensures forall k, i :: 0 <= k < |Rounds(remaining, players)| && 0 <= i < |r| && r[i].Some? &&
                           Rounds(remaining, players)[k][i].Some? ==>
              Dominates(Rounds(remaining, players)[k][i].value, r[i].value)
    decreases |remaining|
  {
    var next := Split(remaining, players);
    if |next.remaining| == |remaining| then
      assert forall i :: 0 <= i < |result| && result[i].Some? ==> Dominates(result[i].value, result[i].value) by {
        forall i | 0 <= i < |result| && result[i].Some? { DominatesReflexive(result[i].value); }
      }
      result
    else
      var merged := Merge(result, next.found);
      var r := Absorb(merged, next.remaining, players);
      AbsorbStep(result, next.found, merged, r, Rounds(next.remaining, players), Rounds(remaining, players));
      r
  }

  /** One step of the loop keeps what the merged slots and the later passes promise. */
  lemma AbsorbStep(result: seq<Option<Device>>, found: seq<Option<Device>>, merged: seq<Option<Device>>,
                   r: seq<Option<Device>>, later: seq<seq<Option<Device>>>, rounds: seq<seq<Option<Device>>>)
    requires |found| == |result| == |r| && merged == Merge(result, found)
    requires forall i :: 0 <= i < |result| && found[i].Some? && result[i].Some? ==>
               TypeOf(found[i].value) == TypeOf(result[i].value)
    requires forall i :: 0 <= i < |r| ==> (r[i].Some? <==> merged[i].Some?)
    requires forall i :: 0 <= i < |r| && r[i].Some? ==> Dominates(merged[i].value, r[i].value)
    requires forall k :: 0 <= k < |later| ==> |later[k]| == |r|
    requires forall k, i :: 0 <= k < |later| && 0 <= i < |r| && r[i].Some? && later[k][i].Some? ==>
               Dominates(later[k][i].value, r[i].value)
    requires rounds == [found] + later
    ensures forall i :: 0 <= i < |r| && r[i].Some? ==> Dominates(result[i].value, r[i].value)
    ensures forall k, i :: 0 <= k < |rounds| && 0 <= i < |r| && r[i].Some? && rounds[k][i].Some? ==>
              Dominates(rounds[k][i].value, r[i].value)
  {
    forall i | 0 <= i < |r| && r[i].Some? ensures Dominates(result[i].value, r[i].value) {
      DominatesTransitive(result[i].value, merged[i].value, r[i].value);
    }
    forall k, i | 0 <= k < |rounds| && 0 <= i < |r| && r[i].Some? && rounds[k][i].Some?
      ensures Dominates(rounds[k][i].value, r[i].value)
    {
      if k == 0 {
        DominatesTransitive(found[i].value, merged[i].value, r[i].value);
      } else {
        assert rounds[k] == later[k - 1];
      }
    }
  }

  /** The loop merges exactly the finds of its passes, in order. */
  lemma {:induction false} AbsorbMergesRounds(result: seq<Option<Device>>, remaining: InputCollection, players: seq<DeviceType>)
    requires |result| == |players|
    requires forall i :: 0 <= i < |result| && result[i].Some? ==> TypeOf(result[i].value) == players[i]
    ensures Absorb(result, remaining, players) == MergeAll(result, Rounds(remaining, players))
    decreases |remaining|
  {
    var next := Split(remaining, players);
    if |next.remaining| != |remaining| {
      var merged := Merge(result, next.found);
      AbsorbMergesRounds(merged, next.remaining, players);
      AbsorbMergesRoundsStep(result, remaining, players);
    } else {
      RoundsUnfold(remaining, players);
      AbsorbUnfold(result, remaining, players);
    }
  }

  /** One pass of the loop is one step of the fold. */
  lemma AbsorbMergesRoundsStep(result: seq<Option<Device>>, remaining: InputCollection, players: seq<DeviceType>)
    requires |result| == |players|
    requires forall i :: 0 <= i < |result| && result[i].Some? ==> TypeOf(result[i].value) == players[i]
    requires var next := Split(remaining, players);
             |next.remaining| != |remaining| &&
             Absorb(Merge(result, next.found), next.remaining, players) ==
               MergeAll(Merge(result, next.found), Rounds(next.remaining, players))
    ensures Absorb(result, remaining, players) == MergeAll(result, Rounds(remaining, players))
  {
    var next := Split(remaining, players);
    var rounds := Rounds(remaining, players);
    RoundsUnfold(remaining, players);
    assert rounds[0] == next.found && rounds[1..] == Rounds(next.remaining, players);
    AbsorbUnfold(result, remaining, players);
    MergeAllUnfold(result, rounds);
  }

  /** Folding a non-empty list of passes merges the first, then folds the rest. */
  lemma MergeAllUnfold(result: seq<Option<Device>>, rounds: seq<seq<Option<Device>>>)
    requires forall k :: 0 <= k < |rounds| ==> |rounds[k]| == |result|
    ensures |rounds| > 0 ==> MergeAll(result, rounds) == MergeAll(Merge(result, rounds[0]), rounds[1..])
  {}

  /** A pass that takes something is the first of the passes; one that takes nothing ends them. */
  lemma RoundsUnfold(remaining: InputCollection, players: seq<DeviceType>)
    ensures var next := Split(remaining, players);
            |next.remaining| == |remaining| ==> Rounds(remaining, players) == []
    ensures var next := Split(remaining, players);
            |next.remaining| != |remaining| ==>
              Rounds(remaining, players) == [next.found] + Rounds(next.remaining, players)
  {}

  /** A pass that takes something is merged before the loop goes on; one that takes nothing
      ends the loop. */
  lemma AbsorbUnfold(result: seq<Option<Device>>, remaining: InputCollection, players: seq<DeviceType>)
    requires |result| == |players|
    requires forall i :: 0 <= i < |result| && result[i].Some? ==> TypeOf(result[i].value) == players[i]
    ensures var next := Split(remaining, players);
            |next.remaining| == |remaining| ==> Absorb(result, remaining, players) == result
    ensures var next := Split(remaining, players);
            |next.remaining| != |remaining| ==>
              Absorb(result, remaining, players) == Absorb(Merge(result, next.found), next.remaining, players)
  {}

  /** A filled slot holds nothing beyond the first choice and the surplus finds for it:
      any device that dominates all of them dominates the slot. */
  lemma AssignLeast(pool: InputCollection, players: seq<DeviceType>, i: nat, e: Device)
    requires i < |players|
    ensures Split(pool, players).found[i].Some? && Dominates(Split(pool, players).found[i].value, e) &&
            (forall k :: 0 <= k < |Surplus(pool, players)| && Surplus(pool, players)[k][i].Some? ==>
               Dominates(Surplus(pool, players)[k][i].value, e)) ==>
              Assign(pool, players)[i].Some? && Dominates(Assign(pool, players)[i].value, e)
  {
    var first := Split(pool, players);
    var rounds: seq<seq<Option<Device>>> := Surplus(pool, players);
    if first.found[i].Some? && Dominates(first.found[i].value, e) &&
       (forall k :: 0 <= k < |rounds| && rounds[k][i].Some? ==> Dominates(rounds[k][i].value, e)) {
      AssignMergesRounds(pool, players);
      MergeAllLeast(first.found, rounds, i, e);
    }
  }

  /** A keyboard player's device reports, for a scan code no surplus keyboard holds, the
      first choice's entry. */
  lemma AssignKeyboardKeeps(pool: InputCollection, players: seq<DeviceType>, i: nat, s: KeyCode)
    requires i < |players| && players[i] == KeyboardType
    ensures var first := Split(pool, players).found;
            var rounds := Surplus(pool, players);
            first[i].Some? && (forall k :: 0 <= k < |rounds| ==> !HoldsScan(rounds[k][i], s)) ==>
              && HoldsKeyboard(first[i])
              && HoldsKeyboard(Assign(pool, players)[i])
              && Entry(Assign(pool, players)[i].value.keyboard.pressed, s) == Entry(first[i].value.keyboard.pressed, s)
  {
    var first: seq<Option<Device>> := Split(pool, players).found;
    var rounds: seq<seq<Option<Device>>> := Surplus(pool, players);
    if first[i].Some? && (forall k :: 0 <= k < |rounds| ==> !HoldsScan(rounds[k][i], s)) {
      AssignMergesRounds(pool, players);
      MergeAllKeyboardKeeps(first, rounds, i, s);
    }
  }

  /** A keyboard player's device reports, for each scan code a surplus keyboard holds, the
      entry of the last surplus keyboard that holds it. */
  lemma AssignKeyboardLast(pool: InputCollection, players: seq<DeviceType>, i: nat, s: KeyCode, k: nat)
    requires i < |players| && players[i] == KeyboardType
    ensures var first := Split(pool, players).found;
            var rounds := Surplus(pool, players);
            first[i].Some? && k < |rounds| && HoldsScan(rounds[k][i], s) &&
            (forall k' :: k < k' < |rounds| ==> !HoldsScan(rounds[k'][i], s)) ==>
              && HoldsKeyboard(Assign(pool, players)[i])
              && Entry(Assign(pool, players)[i].value.keyboard.pressed, s) == Entry(rounds[k][i].value.keyboard.pressed, s)
  {
    var first: seq<Option<Device>> := Split(pool, players).found;
    var rounds: seq<seq<Option<Device>>> := Surplus(pool, players);
    if first[i].Some? && k < |rounds| && HoldsScan(rounds[k][i], s) &&
       (forall k' :: k < k' < |rounds| ==> !HoldsScan(rounds[k'][i], s)) {
      AssignMergesRounds(pool, players);
      MergeAllKeyboardLast(first, rounds, i, s, k);
    }
  }

  /** When the first split takes every device, the loop has no pass to merge. */
  lemma SurplusNone(pool: InputCollection, players: seq<DeviceType>)
    ensures |Split(pool, players).remaining| == 0 ==> Surplus(pool, players) == []
  {
    assert Rounds([], players) == [];
  }

  /** Merging a single pass is one `Merge`. */
  lemma MergeAllOne(result: seq<Option<Device>>, found: seq<Option<Device>>)
    requires |found| == |result|
    ensures MergeAll(result, [found]) == Merge(result, found)
  {
    assert [found][1..] == [];
  }

  /** A pass that claims nothing leaves devices none of which converts to any requested kind. */
  lemma AbsorbStopsOnlyWhenStuck(remaining: InputCollection, players: seq<DeviceType>)
    requires |Split(remaining, players).remaining| == |remaining|
    ensures forall i, j :: 0 <= i < |players| && 0 <= j < |remaining| ==> Affinity(remaining[j], players[i]).None?
  {}

  /** The finds of the passes after the first split. */
  function Surplus(pool: InputCollection, players: seq<DeviceType>): seq<seq<Option<Device>>> {
    Rounds(Split(pool, players).remaining, players)
  }

  /** `get_input_arguments` on the pool and the players' requested kinds: one
      entry per player; a slot is filled exactly when the first split filled it, with
      a device of the requested kind that keeps the inputs of the first choice and of
      every surplus device a later pass found for that slot. */
  function Assign(pool: InputCollection, players: seq<DeviceType>): (r: seq<Option<Device>>)
    ensures |r| == |players|
    ensures forall i :: 0 <= i < |r| ==> (r[i].Some? <==> Split(pool, players).found[i].Some?)
    ensures forall i :: 0 <= i < |r| && r[i].Some? ==> TypeOf(r[i].value) == players[i]
    ensures forall i :: 0 <= i < |r| && r[i].Some? ==> Dominates(Split(pool, players).found[i].value, r[i].value)
    ensures forall k, i :: 0 <= k < |Surplus(pool, players)| && 0 <= i < |r| && r[i].Some? &&
                           Surplus(pool, players)[k][i].Some? ==>
              Dominates(Surplus(pool, players)[k][i].value, r[i].value)
    ensures (forall i, j :: 0 <= i < |players| && 0 <= j < |pool| ==> Affinity(pool[j], players[i]).None?) ==>
              forall i :: 0 <= i < |r| ==> r[i].None?
  {
    var first := Split(pool, players);
    var r := Absorb(first.found, first.remaining, players);
    assert (forall i, j :: 0 <= i < |players| && 0 <= j < |pool| ==> Affinity(pool[j], players[i]).None?) ==>
             forall i :: 0 <= i < |r| ==> r[i].None? by {
      if forall i, j :: 0 <= i < |players| && 0 <= j < |pool| ==> Affinity(pool[j], players[i]).None? {
        forall i | 0 <= i < |players| ensures first.found[i].None? {
          SplitSlot(pool, players, i);
          var w := WorkingList(pool, players, i);
          SubsequenceSameNone(w, pool, players[i]);
        }
      }
    }
    r
  }

  /** The assignment is the first split with the finds of every later pass merged in. */
  lemma AssignMergesRounds(pool: InputCollection, players: seq<DeviceType>)
    ensures Assign(pool, players) == MergeAll(Split(pool, players).found, Surplus(pool, players))
  {
    var first := Split(pool, players);
    AbsorbMergesRounds(first.found, first.remaining, players);
  }

  /** Whatever no device of a list converts to, no device of a sub-list converts to. */
  lemma {:induction false} SubsequenceSameNone(a: seq<Device>, b: seq<Device>, t: DeviceType)
    requires IsSubsequence(a, b)
    requires forall j :: 0 <= j < |b| ==> Affinity(b[j], t).None?
    ensures forall j :: 0 <= j < |a| ==> Affinity(a[j], t).None?
    decreases |b|
  {
    if |a| > 0 {
      assert forall j :: 0 <= j < |b| - 1 ==> b[1..][j] == b[j + 1];
      if a[0] == b[0] && IsSubsequence(a[1..], b[1..]) {
        SubsequenceSameNone(a[1..], b[1..], t);
        assert forall j :: 1 <= j < |a| ==> a[j] == a[1..][j - 1];
      } else {
        SubsequenceSameNone(a, b[1..], t);
      }
    }
  }

  /** An empty pool leaves every player without a device. */
  lemma AssignEmptyPool(players: seq<DeviceType>)
    ensures forall i :: 0 <= i < |players| ==> Assign([], players)[i].None?
  {}
}

=== FILE: devices.dfy ===
/** The device variant model: the three device kinds behind one tagged union,
    how well each can stand in for a requested kind (affinity, lower is better),
    the lossy conversion between kinds, and the fusion of two devices. */
module Devices {
  import opened Optional
  import opened Pads
  import opened Keys

  /** A requested kind of device, and the kind of a concrete device. */
  datatype DeviceType = NesType | ControllerType | KeyboardType

  datatype Device =
    | NesDevice(nes: Nes)
    | ControllerDevice(controller: Controller)
    | KeyboardDevice(keyboard: Keyboard)

  function TypeOf(d: Device): DeviceType {
    match d
    case NesDevice(_) => NesType
    case ControllerDevice(_) => ControllerType
    case KeyboardDevice(_) => KeyboardType
  }

  /** A NES pad converts only to itself. */
  function NesAffinity(t: DeviceType): Option<int> {
    match t
    case NesType => Some(0)
    case _ => None
  }

  function NesConvert(n: Nes, t: DeviceType): Option<Device> {
    match t
    case NesType => Some(NesDevice(n))
    case _ => None
  }

  /** A controller converts to itself, or to a NES pad through its stick-to-d-pad mapping. */
  function ControllerAffinity(t: DeviceType): Option<int> {
    match t
    case NesType => Some(1)
    case ControllerType => Some(0)
    case _ => None
  }

  function ControllerConvert(c: Controller, t: DeviceType): Option<Device> {
    match t
    case NesType => Some(NesDevice(ControllerToNes(c)))
    case ControllerType => Some(ControllerDevice(c))
    case _ => None
  }

  /** A keyboard converts to itself, or to a NES pad through the fixed key binding. */
  function KeyboardAffinity(t: DeviceType): Option<int> {
    match t
    case NesType => Some(2)
    case KeyboardType => Some(0)
    case _ => None
  }

  function KeyboardConvert(kb: Keyboard, t: DeviceType): Option<Device> {
    match t
    case NesType => Some(NesDevice(KeyboardToNes(kb)))
    case KeyboardType => Some(KeyboardDevice(kb))
    case _ => None
  }

  /** How closely `d` matches kind `t`: lower is a closer fit, `None` means it cannot
      stand in at all. Zero exactly for the device's own kind. */
  function Affinity(d: Device, t: DeviceType): (r: Option<int>)
    ensures r.Some? ==> 0 <= r.value
    ensures r == Some(0) <==> t == TypeOf(d)
  {
    match d
    case NesDevice(_) => NesAffinity(t)
    case ControllerDevice(_) => ControllerAffinity(t)
    case KeyboardDevice(_) => KeyboardAffinity(t)
  }

  /** `d` converted to kind `t`. Defined exactly where the affinity is, always of
      kind `t`, and the identity on the device's own kind. */
  function Convert(d: Device, t: DeviceType): (r: Option<Device>)
    ensures r.Some? <==> Affinity(d, t).Some?
    ensures r.Some? ==> TypeOf(r.value) == t
    ensures t == TypeOf(d) ==> r == Some(d)
  {
    match d
    case NesDevice(n) => NesConvert(n, t)
    case ControllerDevice(c) => ControllerConvert(c, t)
    case KeyboardDevice(kb) => KeyboardConvert(kb, t)
  }

  /** A NES pad: affinity 0 and an identical copy for its own kind, nothing else. */
  lemma NesTable(n: Nes)
    ensures Affinity(NesDevice(n), NesType) == Some(0) && Convert(NesDevice(n), NesType) == Some(NesDevice(n))
    ensures Affinity(NesDevice(n), ControllerType).None? && Convert(NesDevice(n), ControllerType).None?
    ensures Affinity(NesDevice(n), KeyboardType).None? && Convert(NesDevice(n), KeyboardType).None?
  {}

  /** A controller: affinity 0 for its own kind, 1 as a NES pad through its d-pad
      mapping, no keyboard. */
  lemma ControllerTable(c: Controller)
    ensures Affinity(ControllerDevice(c), ControllerType) == Some(0)
    ensures Convert(ControllerDevice(c), ControllerType) == Some(ControllerDevice(c))
    ensures Affinity(ControllerDevice(c), NesType) == Some(1)
    ensures Convert(ControllerDevice(c), NesType) == Some(NesDevice(ControllerToNes(c)))
    ensures Affinity(ControllerDevice(c), KeyboardType).None? && Convert(ControllerDevice(c), KeyboardType).None?
  {}

  /** A keyboard: affinity 0 for its own kind, 2 as a NES pad through its key binding,
      no controller. */
  lemma KeyboardTable(kb: Keyboard)
    ensures Affinity(KeyboardDevice(kb), KeyboardType) == Some(0)
    ensures Convert(KeyboardDevice(kb), KeyboardType) == Some(KeyboardDevice(kb))
    ensures Affinity(KeyboardDevice(kb), NesType) == Some(2)
    ensures Convert(KeyboardDevice(kb), NesType) == Some(NesDevice(KeyboardToNes(kb)))
    ensures Affinity(KeyboardDevice(kb), ControllerType).None? && Convert(KeyboardDevice(kb), ControllerType).None?
  {}

  /** Only a keyboard converts to a keyboard, and it converts to itself. */
  lemma OnlyKeyboardsToKeyboard(d: Device)
    ensures Convert(d, KeyboardType).Some? <==> d.KeyboardDevice?
    ensures Convert(d, KeyboardType).Some? ==> Convert(d, KeyboardType).value == d
  {}

  /** Every pressed input of `d` is pressed on `e`, and they are the same kind of device. */
  predicate Dominates(d: Device, e: Device) {
    match (d, e)
    case (NesDevice(n), NesDevice(m)) => NesBelow(n, m)
    case (ControllerDevice(c), ControllerDevice(k)) => ControllerBelow(c, k)
    case (KeyboardDevice(a), KeyboardDevice(b)) => KeysBelow(a, b)
    case _ => false
  }

  lemma DominatesReflexive(d: Device)
    ensures Dominates(d, d)
  {}

  lemma DominatesTransitive(d: Device, e: Device, f: Device)
    requires Dominates(d, e) && Dominates(e, f)
    ensures Dominates(d, f)
  {}

  /** Fuses `with` into `d`: `with` is first converted to `d`'s kind, then the two are
      combined field by field. When `with` cannot take `d`'s kind, `d` comes back
      unchanged. The result keeps `d`'s kind and every input pressed on `d`. */
  function DeviceCombine(d: Device, with: Device): (r: Device)
    ensures TypeOf(r) == TypeOf(d)
    ensures Convert(with, TypeOf(d)).None? ==> r == d
    ensures Dominates(d, r)
    ensures Convert(with, TypeOf(d)).Some? ==> Dominates(Convert(with, TypeOf(d)).value, r)
  {
    match d
    case NesDevice(n) =>
      (match Convert(with, NesType)
       case Some(NesDevice(w)) => NesCombineUpperBound(n, w); NesDevice(NesCombine(n, w))
       case _ => d)
    case ControllerDevice(c) =>
      (match Convert(with, ControllerType)
       case Some(ControllerDevice(w)) => ControllerCombineUpperBound(c, w); ControllerDevice(ControllerCombine(c, w))
       case _ => d)
    case KeyboardDevice(kb) =>
      (match Convert(with, KeyboardType)
       case Some(KeyboardDevice(w)) => KeyboardCombineUpperBound(kb, w); KeyboardDevice(KeyboardCombine(kb, w))
       case _ => d)
  }

  /** Two devices of one kind combine with that kind's own combination. */
  lemma DeviceCombineSameKind(d: Device, e: Device)
    ensures d.NesDevice? && e.NesDevice? ==> DeviceCombine(d, e) == NesDevice(NesCombine(d.nes, e.nes))
    ensures d.ControllerDevice? && e.ControllerDevice? ==>
              DeviceCombine(d, e) == ControllerDevice(ControllerCombine(d.controller, e.controller))
    ensures d.KeyboardDevice? && e.KeyboardDevice? ==>
              DeviceCombine(d, e) == KeyboardDevice(KeyboardCombine(d.keyboard, e.keyboard))
  {}

  /** A keyboard takes in only another keyboard, through the keyboard combination, so
      the incoming keyboard's entry wins for every scan code it holds; any other device
      leaves the keyboard unchanged. */
  lemma DeviceCombineKeyboard(d: Device, with: Device, s: KeyCode)
    requires d.KeyboardDevice?
    ensures with.KeyboardDevice? ==> DeviceCombine(d, with) == KeyboardDevice(KeyboardCombine(d.keyboard, with.keyboard))
    ensures !with.KeyboardDevice? ==> DeviceCombine(d, with) == d
    ensures DeviceCombine(d, with).KeyboardDevice?
    ensures Entry(DeviceCombine(d, with).keyboard.pressed, s) ==
              if with.KeyboardDevice? && Entry(with.keyboard.pressed, s).Some? then Entry(with.keyboard.pressed, s)
              else Entry(d.keyboard.pressed, s)
  {
    if with.KeyboardDevice? {
      var c := KeyboardCombine(d.keyboard, with.keyboard);
      assert Entry(c.pressed, s) ==
               if Entry(with.keyboard.pressed, s).Some? then Entry(with.keyboard.pressed, s) else Entry(d.keyboard.pressed, s);
    }
  }

  /** The combination is the least device above both operands: any device of the same
      kind that dominates both dominates their combination. */
  lemma DeviceCombineLeast(d: Device, with: Device, e: Device)
    requires Dominates(d, e) && Dominates(with, e)
    ensures Dominates(DeviceCombine(d, with), e)
  {
    match e
    case NesDevice(n) =>
      NesCombineLeastUpperBound(d.nes, with.nes, n);
    case ControllerDevice(c) =>
      ControllerCombineLeast(d.controller, with.controller, c);
    case KeyboardDevice(kb) =>
      forall s | IsDownScan(KeyboardCombine(d.keyboard, with.keyboard), s) ensures IsDownScan(kb, s) {
        KeyboardCombinePressed(d.keyboard, with.keyboard, s);
      }
  }

  /** The keyboard invariant, lifted to devices. */
  predicate WellFormed(d: Device) {
    d.KeyboardDevice? ==> UniqueScans(d.keyboard.pressed)
  }

  /** Combining a well-formed device with itself gives it back. */
  lemma DeviceCombineIdempotent(d: Device)
    requires WellFormed(d)
    ensures DeviceCombine(d, d) == d
  {
    match d
    case NesDevice(n) => NesCombineIdempotent(n);
    case ControllerDevice(c) => ControllerCombineIdempotent(c);
    case KeyboardDevice(kb) => KeyboardCombineIdempotent(kb);
  }
}

=== FILE: game.dfy ===
/** What a game declares and what it receives each step: the game info with its
    player list and step interval, and the per-step input arguments built from the
    device pool, with per-player lookup and typed views of each player's device. */
module Game {
  import opened Optional
  import opened Pads
  import opened Keys
  import opened Devices
  import Collection

  const I32Min: int := -0x8000_0000
  const I32Max: int := 0x7fff_ffff
  const U32Modulus: int := 0x1_0000_0000
  const UsizeModulus: int := 0x1_0000_0000_0000_0000
  /** No vector is longer than the largest signed machine word. */
  const IsizeMax: int := 0x7fff_ffff_ffff_ffff

  predicate IsI32(x: int) {
    I32Min <= x <= I32Max
  }

  /** Nanoseconds in one second. */
  const NanosPerSecond: int := 1_000_000_000

  datatype Player = Player(input: DeviceType)

  datatype Info = Info(name: string, stepInterval: nat, players: seq<Player>)

  /** `steps_per_second_to_interval`: one second in nanoseconds divided by the step
      rate, the rate first reinterpreted as an unsigned 32-bit number. A negative rate
      therefore becomes a huge divisor and an interval of 0; a zero rate is a division
      by zero in the source and is excluded. */
  function StepsPerSecondToInterval(steps: int): (r: nat)
    requires IsI32(steps) && steps != 0
    ensures r < U32Modulus
    ensures steps > 0 ==> r * steps <= NanosPerSecond < (r + 1) * steps
    ensures steps < 0 ==> r == 0
  {
    var divisor := if steps < 0 then steps + U32Modulus else steps;
    DivBounds(NanosPerSecond, divisor);
    NanosPerSecond / divisor
  }

  /** Euclidean division of a natural number brackets the dividend. */
  lemma DivBounds(a: nat, b: int)
    requires b > 0
    ensures a / b >= 0
    ensures (a / b) * b <= a < (a / b + 1) * b
    ensures a < b ==> a / b == 0
  {}

  /** `Info::new`: the game info with `numberOfPlayers` players, all asking for `input`.
      A negative player count makes the source's vector allocation fail, so it is excluded. */
  method InfoNew(name: string, stepsPerSecond: int, numberOfPlayers: int, input: DeviceType) returns (info: Info)
    requires IsI32(stepsPerSecond) && stepsPerSecond != 0
    requires 0 <= numberOfPlayers <= I32Max
    ensures info.name == name
    ensures |info.players| == numberOfPlayers
    ensures forall i :: 0 <= i < |info.players| ==> info.players[i].input == input
    ensures info.stepInterval == StepsPerSecondToInterval(stepsPerSecond)
    ensures stepsPerSecond > 0 ==>
              info.stepInterval * stepsPerSecond <= NanosPerSecond < (info.stepInterval + 1) * stepsPerSecond
    ensures stepsPerSecond < 0 ==> info.stepInterval == 0
  {
    var player := Player(input);
    var players: seq<Player> := [];
    for i := 0 to numberOfPlayers
      invariant |players| == i
      invariant forall j :: 0 <= j < i ==> players[j] == player
    {
      players := players + [player];
    }
    info := Info(name, StepsPerSecondToInterval(stepsPerSecond), players);
  }

  /** The kinds the players ask for, in player order. */
  function Requests(info: Info): (r: seq<DeviceType>)
    ensures |r| == |info.players|
    ensures forall i :: 0 <= i < |r| ==> r[i] == info.players[i].input
  {
    seq(|info.players|, i requires 0 <= i < |info.players| => info.players[i].input)
  }

  // ---------------------------------------------------------------------------
  // Step arguments

  datatype PlayerInputArguments = PlayerInputArguments(input: Device)

  datatype InputArguments = InputArguments(players: seq<Option<PlayerInputArguments>>)

  datatype StepArguments = StepArguments(input: InputArguments)

  function StepInput(s: StepArguments): InputArguments {
    s.input
  }

  /** `StepArguments::new`; `input()` gives back what was stored. */
  function StepArgumentsNew(input: InputArguments): (s: StepArguments)
    ensures StepInput(s) == input
  {
    StepArguments(input)
  }

  /** `InputArguments::player`: the player index is reinterpreted as an unsigned machine
      word, so a negative index, like one past the end, finds no player. */
  function PlayerAt(args: InputArguments, player: int): (r: Option<PlayerInputArguments>)
    requires IsI32(player)
    requires |args.players| <= IsizeMax
    ensures player < 0 || player >= |args.players| ==> r.None?
    ensures 0 <= player < |args.players| ==> r == args.players[player]
  {
    var index := if player < 0 then player + UsizeModulus else player;
    if index < |args.players| then args.players[index] else None
  }

  /** `InputArguments::new`: every stored slot is found again by its index. */
  function InputArgumentsNew(players: seq<Option<PlayerInputArguments>>): (r: InputArguments)
    requires |players| <= IsizeMax
    ensures |r.players| <= IsizeMax
    ensures forall i :: 0 <= i < |players| && IsI32(i) ==> PlayerAt(r, i) == players[i]
  {
    InputArguments(players)
  }

  /** The player's device as a NES pad, when it is one. */
  function AsNes(p: PlayerInputArguments): (r: Option<Nes>)
    ensures r.Some? <==> TypeOf(p.input) == NesType
    ensures r.Some? ==> p.input == NesDevice(r.value)
  {
    if p.input.NesDevice? then Some(p.input.nes) else None
  }

  /** The player's device as a controller, when it is one. */
  function AsController(p: PlayerInputArguments): (r: Option<Controller>)
    ensures r.Some? <==> TypeOf(p.input) == ControllerType
    ensures r.Some? ==> p.input == ControllerDevice(r.value)
  {
    if p.input.ControllerDevice? then Some(p.input.controller) else None
  }

  /** The player's device as a keyboard, when it is one. */
  function AsKeyboard(p: PlayerInputArguments): (r: Option<Keyboard>)
    ensures r.Some? <==> TypeOf(p.input) == KeyboardType
    ensures r.Some? ==> p.input == KeyboardDevice(r.value)
  {
    if p.input.KeyboardDevice? then Some(p.input.keyboard) else None
  }

  /** Exactly one typed view of a player's device is present. */
  lemma ExactlyOneView(p: PlayerInputArguments)
    ensures AsNes(p).Some? || AsController(p).Some? || AsKeyboard(p).Some?
    ensures !(AsNes(p).Some? && AsController(p).Some?)
    ensures !(AsNes(p).Some? && AsKeyboard(p).Some?)
    ensures !(AsController(p).Some? && AsKeyboard(p).Some?)
  {}

  // ---------------------------------------------------------------------------
  // Building the step input from the device pool

  function Wrap(slots: seq<Option<Device>>): (r: seq<Option<PlayerInputArguments>>)
    ensures |r| == |slots|
    ensures forall i :: 0 <= i < |r| ==> (r[i].Some? <==> slots[i].Some?)
    ensures forall i :: 0 <= i < |r| && r[i].Some? ==> r[i].value.input == slots[i].value
  {
    seq(|slots|, i requires 0 <= i < |slots| =>
      match slots[i]
      case Some(d) => Some(PlayerInputArguments(d))
      case None => None)
  }

  /** `InputCollection::get_input_arguments`: one entry per declared player; a player
      gets a device exactly when the first split found one for them, and it is always
      of the kind the player asked for. That device keeps the inputs of the first choice
      and of every surplus device a later pass of the loop found for the player. */
  function GetInputArguments(pool: Collection.InputCollection, info: Info): (r: InputArguments)
    ensures |r.players| == |info.players|
    ensures forall i :: 0 <= i < |r.players| ==>
              (r.players[i].Some? <==> Collection.Split(pool, Requests(info)).found[i].Some?)
    ensures forall i :: 0 <= i < |r.players| && r.players[i].Some? ==>
              TypeOf(r.players[i].value.input) == info.players[i].input
    ensures forall i :: 0 <= i < |r.players| && r.players[i].Some? ==>
              Dominates(Collection.Split(pool, Requests(info)).found[i].value, r.players[i].value.input)
    ensures forall k, i :: 0 <= k < |Collection.Surplus(pool, Requests(info))| && 0 <= i < |r.players| &&
                           r.players[i].Some? && Collection.Surplus(pool, Requests(info))[k][i].Some? ==>
              Dominates(Collection.Surplus(pool, Requests(info))[k][i].value, r.players[i].value.input)
    ensures |pool| == 0 ==> forall i :: 0 <= i < |r.players| ==> r.players[i].None?
  {
    var slots := Collection.Assign(pool, Requests(info));
    var r := InputArguments(Wrap(slots));
    assert forall i :: 0 <= i < |r.players| && r.players[i].Some? ==> r.players[i].value.input == slots[i].value;
    r
  }

  /** A player's device holds nothing beyond the first choice and the surplus finds for
      that player: any device that dominates all of them dominates the player's device. */
  lemma GetInputArgumentsLeast(pool: Collection.InputCollection, info: Info, i: nat, e: Device)
    requires i < |info.players|
    ensures var first := Collection.Split(pool, Requests(info));
            var rounds := Collection.Surplus(pool, Requests(info));
            first.found[i].Some? && Dominates(first.found[i].value, e) &&
            (forall k :: 0 <= k < |rounds| && rounds[k][i].Some? ==> Dominates(rounds[k][i].value, e)) ==>
              GetInputArguments(pool, info).players[i].Some? &&
              Dominates(GetInputArguments(pool, info).players[i].value.input, e)
  {
    Collection.AssignLeast(pool, Requests(info), i, e);
  }

  /** A keyboard player's keyboard reports, for a scan code no surplus keyboard holds, the
      first choice's entry. */
  lemma GetInputArgumentsKeyboardKeeps(pool: Collection.InputCollection, info: Info, i: nat, s: KeyCode)
    requires i < |info.players| && info.players[i].input == KeyboardType
    ensures var first := Collection.Split(pool, Requests(info)).found;
            var rounds := Collection.Surplus(pool, Requests(info));
            var r := GetInputArguments(pool, info);
            first[i].Some? && (forall k :: 0 <= k < |rounds| ==> !Collection.HoldsScan(rounds[k][i], s)) ==>
              && first[i].value.KeyboardDevice?
              && r.players[i].Some? && r.players[i].value.input.KeyboardDevice?
              && Entry(r.players[i].value.input.keyboard.pressed, s) == Entry(first[i].value.keyboard.pressed, s)
  {
    Collection.AssignKeyboardKeeps(pool, Requests(info), i, s);
  }

  /** A keyboard player's keyboard reports, for each scan code a surplus keyboard holds, the
      entry of the last surplus keyboard that holds it. */
  lemma GetInputArgumentsKeyboardLast(pool: Collection.InputCollection, info: Info, i: nat, s: KeyCode, k: nat)
    requires i < |info.players| && info.players[i].input == KeyboardType
    ensures var first := Collection.Split(pool, Requests(info)).found;
            var rounds := Collection.Surplus(pool, Requests(info));
            var r := GetInputArguments(pool, info);
            first[i].Some? && k < |rounds| && Collection.HoldsScan(rounds[k][i], s) &&
            (forall k' :: k < k' < |rounds| ==> !Collection.HoldsScan(rounds[k'][i], s)) ==>
              && r.players[i].Some? && r.players[i].value.input.KeyboardDevice?
              && Entry(r.players[i].value.input.keyboard.pressed, s) == Entry(rounds[k][i].value.keyboard.pressed, s)
  {
    Collection.AssignKeyboardLast(pool, Requests(info), i, s, k);
  }

  /** A player who got a device can read it through the view of the kind they asked for. */
  lemma RequestedViewPresent(pool: Collection.InputCollection, info: Info)
    ensures var r := GetInputArguments(pool, info);
            forall i :: 0 <= i < |r.players| && r.players[i].Some? ==>
              && (info.players[i].input == NesType ==> AsNes(r.players[i].value).Some?)
              && (info.players[i].input == ControllerType ==> AsController(r.players[i].value).Some?)
              && (info.players[i].input == KeyboardType ==> AsKeyboard(r.players[i].value).Some?)
  {}
}

=== FILE: keys.dfy ===
/** The keyboard device: an ordered list of pressed keys, each a pair of a
    layout-independent scan code and a layout-dependent key code, together with
    the fixed key binding that lets a keyboard stand in for a NES pad. */
module Keys {
  import opened Optional
  import opened Pads

  /** Key and scan codes, as the position of the code in the source's `KeyCode`
      enumeration (digits `_1` .. `_0` first, then A .. Z, arrows, Enter, Tab,
      punctuation). Only equality matters to the engine. */
  newtype KeyCode = c: int | 0 <= c < 50

  const Num1: KeyCode := 0
  const Num2: KeyCode := 1
  const Num3: KeyCode := 2
  const Num4: KeyCode := 3
  const Num5: KeyCode := 4
  const Num6: KeyCode := 5
  const Num7: KeyCode := 6
  const Num8: KeyCode := 7
  const Num9: KeyCode := 8
  const Num0: KeyCode := 9
  const A: KeyCode := 10
  const B: KeyCode := 11
  const C: KeyCode := 12
  const D: KeyCode := 13
  const E: KeyCode := 14
  const F: KeyCode := 15
  const G: KeyCode := 16
  const H: KeyCode := 17
  const I: KeyCode := 18
  const J: KeyCode := 19
  const K: KeyCode := 20
  const L: KeyCode := 21
  const M: KeyCode := 22
  const N: KeyCode := 23
  const O: KeyCode := 24
  const P: KeyCode := 25
  const Q: KeyCode := 26
  const R: KeyCode := 27
  const S: KeyCode := 28
  const T: KeyCode := 29
  const U: KeyCode := 30
  const V: KeyCode := 31
  const W: KeyCode := 32
  const X: KeyCode := 33
  const Y: KeyCode := 34
  const Z: KeyCode := 35
  const Up: KeyCode := 36
  const Down: KeyCode := 37
  const Left: KeyCode := 38
  const Right: KeyCode := 39
  const Enter: KeyCode := 40
  const Tab: KeyCode := 41
  const LeftBracket: KeyCode := 42
  const RightBracket: KeyCode := 43
  const Slash: KeyCode := 44
  const Backslash: KeyCode := 45
  const Comma: KeyCode := 46
  const Period: KeyCode := 47
  const Semicolon: KeyCode := 48
  const Quote: KeyCode := 49

  datatype Key = Key(scanCode: KeyCode, keyCode: KeyCode)

  datatype Keyboard = Keyboard(pressed: seq<Key>)

  /** The keyboard with nothing pressed. */
  const NoKeys: Keyboard := Keyboard([])

  /** The keyboard invariant: at most one entry per scan code. */
  predicate UniqueScans(pressed: seq<Key>) {
    forall i, j :: 0 <= i < j < |pressed| ==> pressed[i].scanCode != pressed[j].scanCode
  }

  /** The front-to-back search of `is_down_scan`. */
  function AnyScan(pressed: seq<Key>, s: KeyCode): (r: bool)
    ensures r <==> exists i :: 0 <= i < |pressed| && pressed[i].scanCode == s
  {
    if |pressed| == 0 then false
    else if pressed[0].scanCode == s then true
    else
      var rest := AnyScan(pressed[1..], s);
      assert forall i :: 0 < i < |pressed| ==> pressed[i] == pressed[1..][i - 1];
      rest
  }

  /** The front-to-back search of `is_down_key`. */
  function AnyKey(pressed: seq<Key>, c: KeyCode): (r: bool)
    ensures r <==> exists i :: 0 <= i < |pressed| && pressed[i].keyCode == c
  {
    if |pressed| == 0 then false
    else if pressed[0].keyCode == c then true
    else
      var rest := AnyKey(pressed[1..], c);
      assert forall i :: 0 < i < |pressed| ==> pressed[i] == pressed[1..][i - 1];
      rest
  }

  /** Is a key with this scan code down (independent of the keyboard layout)? */
  function IsDownScan(kb: Keyboard, s: KeyCode): bool {
    AnyScan(kb.pressed, s)
  }

  /** Is a key with this key code down (dependent on the keyboard layout)? */
  function IsDownKey(kb: Keyboard, c: KeyCode): bool {
    AnyKey(kb.pressed, c)
  }

  /** The most recent entry for scan code `s`; under the keyboard invariant the only one. */
  function Entry(pressed: seq<Key>, s: KeyCode): (r: Option<Key>)
    ensures r.Some? ==> r.value.scanCode == s && r.value in pressed
    ensures r.None? <==> forall i :: 0 <= i < |pressed| ==> pressed[i].scanCode != s
    ensures r.Some? ==> exists i :: 0 <= i < |pressed| && pressed[i] == r.value &&
                                   forall j :: i < j < |pressed| ==> pressed[j].scanCode != s
  {
    if |pressed| == 0 then None
    else if pressed[|pressed| - 1].scanCode == s then Some(pressed[|pressed| - 1])
    else
      var front := pressed[..|pressed| - 1];
      var r := Entry(front, s);
      assert r.Some? ==> exists i :: 0 <= i < |pressed| && pressed[i] == r.value &&
                                     forall j :: i < j < |pressed| ==> pressed[j].scanCode != s by {
        if r.Some? {
          var i :| 0 <= i < |front| && front[i] == r.value &&
                   forall j :: i < j < |front| ==> front[j].scanCode != s;
          assert pressed[i] == r.value;
          assert forall j :: i < j < |pressed| ==> pressed[j].scanCode != s by {
            forall j | i < j < |pressed| ensures pressed[j].scanCode != s {
              if j < |front| { assert pressed[j] == front[j]; }
            }
          }
        }
      }
      r
  }

  /** A key is down exactly when it has an entry. */
  lemma EntryIsDown(kb: Keyboard, s: KeyCode)
    ensures Entry(kb.pressed, s).Some? <==> IsDownScan(kb, s)
  {}

  /** Under the invariant, the entry for a pressed key's scan code is that key. */
  lemma {:induction false} EntryUnique(pressed: seq<Key>, i: nat)
    requires UniqueScans(pressed)
    requires i < |pressed|
    ensures Entry(pressed, pressed[i].scanCode) == Some(pressed[i])
    decreases |pressed|
  {
    var n := |pressed| - 1;
    if i < n {
      assert pressed[n].scanCode != pressed[i].scanCode;
      var init := pressed[..n];
      assert init[i] == pressed[i];
      assert UniqueScans(init) by {
        forall p, q | 0 <= p < q < |init|
          ensures init[p].scanCode != init[q].scanCode
        {
          assert init[p] == pressed[p] && init[q] == pressed[q];
        }
      }
      EntryUnique(init, i);
    }
  }

  /** The `retain` of `key_up`: every entry whose scan code is not `s`, in order. */
  function Without(pressed: seq<Key>, s: KeyCode): (r: seq<Key>)
    ensures |r| <= |pressed|
    ensures forall i :: 0 <= i < |r| ==> r[i].scanCode != s
  {
    if |pressed| == 0 then []
    else
      var n := |pressed| - 1;
      var init := Without(pressed[..n], s);
      if pressed[n].scanCode == s then init else init + [pressed[n]]
  }

  /** Removing one scan code keeps only entries that were there. */
  lemma {:induction false} WithoutSubset(pressed: seq<Key>, s: KeyCode, k: Key)
    requires k in Without(pressed, s)
    ensures k in pressed
    decreases |pressed|
  {
    var n := |pressed| - 1;
    if k != pressed[n] {
      WithoutSubset(pressed[..n], s, k);
    }
  }

  /** Removing one scan code leaves the entries of every other scan code alone. */
  lemma {:induction false} WithoutEntry(pressed: seq<Key>, s: KeyCode, t: KeyCode)
    requires t != s
    ensures Entry(Without(pressed, s), t) == Entry(pressed, t)
    decreases |pressed|
  {
    if |pressed| > 0 {
      var n := |pressed| - 1;
      var init := Without(pressed[..n], s);
      WithoutEntry(pressed[..n], s, t);
      if pressed[n].scanCode != s {
        assert (init + [pressed[n]])[..|init|] == init;
      }
    }
  }

  /** A prefix of a well-formed key list is well formed. */
  lemma UniquePrefix(pressed: seq<Key>, n: nat)
    requires UniqueScans(pressed)
    requires n <= |pressed|
    ensures UniqueScans(pressed[..n])
  {
    forall p, q | 0 <= p < q < n
      ensures pressed[..n][p].scanCode != pressed[..n][q].scanCode
    {
      assert pressed[..n][p] == pressed[p] && pressed[..n][q] == pressed[q];
    }
  }

  /** Removing one scan code keeps the keyboard invariant. */
  lemma {:induction false} WithoutUnique(pressed: seq<Key>, s: KeyCode)
    requires UniqueScans(pressed)
    ensures UniqueScans(Without(pressed, s))
    decreases |pressed|
  {
    if |pressed| > 0 {
      var n := |pressed| - 1;
      var init := Without(pressed[..n], s);
      UniquePrefix(pressed, n);
      WithoutUnique(pressed[..n], s);
      if pressed[n].scanCode != s {
        var r := init + [pressed[n]];
        forall p, q | 0 <= p < q < |r| ensures r[p].scanCode != r[q].scanCode {
          if q == |init| {
            assert r[p] in init;
            WithoutSubset(pressed[..n], s, r[p]);
            var m :| 0 <= m < n && pressed[..n][m] == r[p];
            assert pressed[m] == r[p];
          } else {
            assert r[p] == init[p] && r[q] == init[q];
          }
        }
      }
    }
  }

  /** Releases the key with scan code `s`. */
  function KeyUp(kb: Keyboard, s: KeyCode): (r: Keyboard)
    ensures !IsDownScan(r, s)
    ensures forall t :: t != s ==> Entry(r.pressed, t) == Entry(kb.pressed, t)
    ensures forall t :: t != s ==> IsDownScan(r, t) == IsDownScan(kb, t)
    ensures UniqueScans(kb.pressed) ==> UniqueScans(r.pressed)
  {
    var r := Keyboard(Without(kb.pressed, s));
    assert forall t :: t != s ==> Entry(r.pressed, t) == Entry(kb.pressed, t) by {
      forall t | t != s { WithoutEntry(kb.pressed, s, t); }
    }
    assert forall t :: IsDownScan(r, t) <==> Entry(r.pressed, t).Some?;
    assert forall t :: IsDownScan(kb, t) <==> Entry(kb.pressed, t).Some?;
    assert UniqueScans(kb.pressed) ==> UniqueScans(r.pressed) by {
      if UniqueScans(kb.pressed) { WithoutUnique(kb.pressed, s); }
    }
    r
  }

  /** The list behind `key_down`: drop the entries of the key's scan code, append the key. */
  function Press(pressed: seq<Key>, key: Key): seq<Key> {
    Without(pressed, key.scanCode) + [key]
  }

  /** The list behind the keyboard `combine`: every key of `with` pressed in turn, front to back. */
  function PressAll(pressed: seq<Key>, with: seq<Key>): seq<Key>
    decreases |with|
  {
    if |with| == 0 then pressed
    else Press(PressAll(pressed, with[..|with| - 1]), with[|with| - 1])
  }

  /** After pressing `key`, its scan code maps to `key`; every other scan code keeps its entry. */
  lemma PressEntry(pressed: seq<Key>, key: Key, t: KeyCode)
    ensures Entry(Press(pressed, key), t) == if t == key.scanCode then Some(key) else Entry(pressed, t)
  {
    if t != key.scanCode {
      var rest := Without(pressed, key.scanCode);
      assert (rest + [key])[..|rest|] == rest;
      WithoutEntry(pressed, key.scanCode, t);
    }
  }

  /** Pressing a key keeps the keyboard invariant. */
  lemma PressUnique(pressed: seq<Key>, key: Key)
    requires UniqueScans(pressed)
    ensures UniqueScans(Press(pressed, key))
  {
    WithoutUnique(pressed, key.scanCode);
  }

  /** Pressing a list of keys overrides the entries of their scan codes, the last press winning. */
  lemma {:induction false} PressAllEntry(pressed: seq<Key>, with: seq<Key>, t: KeyCode)
    ensures Entry(PressAll(pressed, with), t) ==
              if Entry(with, t).Some? then Entry(with, t) else Entry(pressed, t)
    decreases |with|
  {
    if |with| > 0 {
      var n := |with| - 1;
      PressAllEntry(pressed, with[..n], t);
      PressEntry(PressAll(pressed, with[..n]), with[n], t);
    }
  }

  /** Pressing a list of keys keeps the keyboard invariant. */
  lemma {:induction false} PressAllUnique(pressed: seq<Key>, with: seq<Key>)
    requires UniqueScans(pressed)
    ensures UniqueScans(PressAll(pressed, with))
    decreases |with|
  {
    if |with| > 0 {
      var n := |with| - 1;
      PressAllUnique(pressed, with[..n]);
      PressUnique(PressAll(pressed, with[..n]), with[n]);
    }
  }

  /** Presses `key`, replacing any entry with the same scan code. */
  function KeyDown(kb: Keyboard, key: Key): (r: Keyboard)
    ensures Entry(r.pressed, key.scanCode) == Some(key)
    ensures IsDownScan(r, key.scanCode) && IsDownKey(r, key.keyCode)
    ensures forall i :: 0 <= i < |r.pressed| && r.pressed[i].scanCode == key.scanCode ==> r.pressed[i] == key
    ensures forall t :: t != key.scanCode ==> Entry(r.pressed, t) == Entry(kb.pressed, t)
    ensures UniqueScans(kb.pressed) ==> UniqueScans(r.pressed)
  {
    var r := Keyboard(Press(kb.pressed, key));
    assert r.pressed[|r.pressed| - 1] == key;
    assert forall t :: Entry(r.pressed, t) == if t == key.scanCode then Some(key) else Entry(kb.pressed, t) by {
      forall t { PressEntry(kb.pressed, key, t); }
    }
    assert UniqueScans(kb.pressed) ==> UniqueScans(r.pressed) by {
      if UniqueScans(kb.pressed) { PressUnique(kb.pressed, key); }
    }
    r
  }

  /** The keyboard `combine`: every key of `with` pressed onto `kb`, front to back.
      The result is `kb` overridden by `with`: a scan code pressed on `with` carries
      `with`'s entry, any other scan code keeps `kb`'s. */
  function KeyboardCombine(kb: Keyboard, with: Keyboard): (r: Keyboard)
    ensures forall t :: Entry(r.pressed, t) ==
              if Entry(with.pressed, t).Some? then Entry(with.pressed, t) else Entry(kb.pressed, t)
    ensures UniqueScans(kb.pressed) ==> UniqueScans(r.pressed)
  {
    var r := Keyboard(PressAll(kb.pressed, with.pressed));
    assert forall t :: Entry(r.pressed, t) ==
             if Entry(with.pressed, t).Some? then Entry(with.pressed, t) else Entry(kb.pressed, t) by {
      forall t { PressAllEntry(kb.pressed, with.pressed, t); }
    }
    assert UniqueScans(kb.pressed) ==> UniqueScans(r.pressed) by {
      if UniqueScans(kb.pressed) { PressAllUnique(kb.pressed, with.pressed); }
    }
    r
  }

  /** A scan code is down on the combined keyboard exactly when it is down on either operand. */
  lemma KeyboardCombinePressed(kb: Keyboard, with: Keyboard, s: KeyCode)
    ensures IsDownScan(KeyboardCombine(kb, with), s) <==> IsDownScan(kb, s) || IsDownScan(with, s)
  {
    EntryIsDown(KeyboardCombine(kb, with), s);
    EntryIsDown(kb, s);
    EntryIsDown(with, s);
  }

  /** Every scan code down on `kb` is down on `other`. */
  predicate KeysBelow(kb: Keyboard, other: Keyboard) {
    forall s :: IsDownScan(kb, s) ==> IsDownScan(other, s)
  }

  /** The combined keyboard is above both operands. */
  lemma KeyboardCombineUpperBound(kb: Keyboard, with: Keyboard)
    ensures KeysBelow(kb, KeyboardCombine(kb, with)) && KeysBelow(with, KeyboardCombine(kb, with))
  {
    forall s {
      KeyboardCombinePressed(kb, with, s);
    }
  }

  /** Every key of a well-formed `with` ends up pressed with `with`'s key code. */
  lemma KeyboardCombineKeepsWith(kb: Keyboard, with: Keyboard, i: nat)
    requires UniqueScans(with.pressed)
    requires i < |with.pressed|
    ensures Entry(KeyboardCombine(kb, with).pressed, with.pressed[i].scanCode) == Some(with.pressed[i])
  {
    EntryUnique(with.pressed, i);
  }

  /** Removing a scan code distributes over concatenation. */
  lemma {:induction false} WithoutAppend(p: seq<Key>, q: seq<Key>, s: KeyCode)
    ensures Without(p + q, s) == Without(p, s) + Without(q, s)
    decreases |q|
  {
    if |q| == 0 {
      assert p + q == p;
    } else {
      var n := |q| - 1;
      assert (p + q)[..|p| + n] == p + q[..n];
      assert (p + q)[|p| + n] == q[n];
      WithoutAppend(p, q[..n], s);
    }
  }

  /** Removing a scan code nobody carries changes nothing. */
  lemma {:induction false} WithoutAbsent(p: seq<Key>, s: KeyCode)
    requires forall i :: 0 <= i < |p| ==> p[i].scanCode != s
    ensures Without(p, s) == p
    decreases |p|
  {
    if |p| > 0 {
      var n := |p| - 1;
      WithoutAbsent(p[..n], s);
      assert p[..n] + [p[n]] == p;
    }
  }

  /** Releasing a key that is not down changes nothing. */
  lemma KeyUpNotDown(kb: Keyboard, s: KeyCode)
    requires !IsDownScan(kb, s)
    ensures KeyUp(kb, s) == kb
  {
    WithoutAbsent(kb.pressed, s);
  }

  /** Releasing a key just pressed undoes the press, whatever was pressed under that scan code before. */
  lemma KeyUpAfterKeyDown(kb: Keyboard, key: Key)
    ensures KeyUp(KeyDown(kb, key), key.scanCode) == KeyUp(kb, key.scanCode)
  {
    var w := Without(kb.pressed, key.scanCode);
    WithoutAppend(w, [key], key.scanCode);
    WithoutAbsent(w, key.scanCode);
    assert Without([key], key.scanCode) == [];
  }

  /** Pressing the front key again, when no other entry shares its scan code, moves it to the back. */
  lemma PressFront(x: Key, rest: seq<Key>)
    requires forall i :: 0 <= i < |rest| ==> rest[i].scanCode != x.scanCode
    ensures Press([x] + rest, x) == rest + [x]
  {
    WithoutAppend([x], rest, x.scanCode);
    WithoutAbsent(rest, x.scanCode);
    assert [x][..0] == [];
  }

  /** In a well-formed `a0 + [x] + b`, no entry of `b + a0` shares the scan code of `x`. */
  lemma UniqueRotated(a0: seq<Key>, x: Key, b: seq<Key>)
    requires UniqueScans(a0 + [x] + b)
    ensures forall i :: 0 <= i < |b + a0| ==> (b + a0)[i].scanCode != x.scanCode
  {
    var whole := a0 + [x] + b;
    var rest := b + a0;
    assert whole[|a0|] == x;
    forall i | 0 <= i < |rest| ensures rest[i].scanCode != x.scanCode {
      if i < |b| {
        assert rest[i] == whole[|a0| + 1 + i];
      } else {
        assert rest[i] == whole[i - |b|];
      }
    }
  }

  /** Pressing again the front part `a` of a well-formed key list `a + b` moves it to the back. */
  lemma {:induction false} PressAllPrefix(a: seq<Key>, b: seq<Key>)
    requires UniqueScans(a + b)
    ensures PressAll(a + b, a) == b + a
    decreases |a|
  {
    if |a| == 0 {
      assert a + b == b && b + a == b;
    } else {
      var n := |a| - 1;
      var a0, x := a[..n], a[n];
      assert a == a0 + [x];
      assert a + b == a0 + ([x] + b);
      PressAllPrefix(a0, [x] + b);
      assert PressAll(a + b, a) == Press(PressAll(a + b, a0), x);
      var rest := b + a0;
      assert ([x] + b) + a0 == [x] + rest;
      assert a0 + [x] + b == a + b;
      UniqueRotated(a0, x, b);
      PressFront(x, rest);
      assert rest + [x] == b + a;
    }
  }

  /** Combining a well-formed keyboard with itself gives it back unchanged. */
  lemma KeyboardCombineIdempotent(kb: Keyboard)
    requires UniqueScans(kb.pressed)
    ensures KeyboardCombine(kb, kb) == kb
  {
    PressAllPrefix(kb.pressed, []);
    assert kb.pressed + [] == kb.pressed && [] + kb.pressed == kb.pressed;
  }

  /** The fixed key binding of the keyboard-as-NES-pad conversion. */
  function Bindings(b: NesButton): set<KeyCode> {
    match b
    case PadA => {K, X, J}
    case PadB => {J, Z, N}
    case PadUp => {W, Up, F}
    case PadDown => {S, Down}
    case PadLeft => {A, Left, R}
    case PadRight => {D, Right, T}
    case PadStart => {Enter}
    case PadSelect => {Tab}
  }

  /** A keyboard seen as a NES pad, by scan code. */
  function KeyboardToNes(kb: Keyboard): Nes {
    Nes(IsDownScan(kb, K) || IsDownScan(kb, X) || IsDownScan(kb, J),
        IsDownScan(kb, J) || IsDownScan(kb, Z) || IsDownScan(kb, N),
        IsDownScan(kb, W) || IsDownScan(kb, Up) || IsDownScan(kb, F),
        IsDownScan(kb, S) || IsDownScan(kb, Down),
        IsDownScan(kb, A) || IsDownScan(kb, Left) || IsDownScan(kb, R),
        IsDownScan(kb, D) || IsDownScan(kb, Right) || IsDownScan(kb, T),
        IsDownScan(kb, Enter),
        IsDownScan(kb, Tab))
  }

  /** Every NES button is bound to at least one key, and J drives both A and B. */
  lemma BindingsTotal(b: NesButton)
    ensures Bindings(b) != {}
    ensures J in Bindings(PadA) && J in Bindings(PadB)
  {}

  /** A NES button is down exactly when some key bound to it is down. */
  lemma KeyboardToNesBindings(kb: Keyboard, b: NesButton)
    ensures Button(KeyboardToNes(kb), b) <==> exists s :: s in Bindings(b) && IsDownScan(kb, s)
  {
    match b
    case PadA =>
    case PadB =>
    case PadUp =>
    case PadDown =>
    case PadLeft =>
    case PadRight =>
    case PadStart =>
    case PadSelect =>
  }

  /** The conversion distributes over combination: a combined keyboard presses
      the fused NES buttons of its operands. */
  lemma KeyboardToNesCombine(kb: Keyboard, with: Keyboard)
    ensures KeyboardToNes(KeyboardCombine(kb, with)) == NesCombine(KeyboardToNes(kb), KeyboardToNes(with))
  {
    forall s {
      KeyboardCombinePressed(kb, with, s);
    }
  }

  /** An idle keyboard is the released pad. */
  lemma KeyboardToNesNoKeys()
    ensures KeyboardToNes(NoKeys) == Released
  {}
}

=== FILE: optional.dfy ===
/** The optional value the input engine uses for every partial answer:
    an unsupported conversion, an empty player slot, an out-of-range lookup. */
module Optional {

  datatype Option<+T> = None | Some(value: T)

  /** Number of occupied entries in a sequence of options. */
  function CountSome<T>(s: seq<Option<T>>): (n: nat)
    ensures n <= |s|
    ensures n == 0 <==> forall i :: 0 <= i < |s| ==> s[i].None?
  {
    if |s| == 0 then 0
    else (if s[0].Some? then 1 else 0) + CountSome(s[1..])
  }
}

=== FILE: pads.dfy ===
/** The two button-pad devices of the engine: the NES-style pad (eight buttons)
    and the modern dual-stick controller (fifteen buttons, four stick axes,
    two triggers). Axes are modelled as reals. */
module Pads {

  /** A NES-style pad: a d-pad, two primary buttons, start and select. */
  datatype Nes = Nes(a: bool, b: bool, up: bool, down: bool,
                     left: bool, right: bool, start: bool, select: bool)

  /** Names of the eight NES buttons, so that properties can quantify over them. */
  datatype NesButton = PadA | PadB | PadUp | PadDown | PadLeft | PadRight | PadStart | PadSelect

  function Button(n: Nes, b: NesButton): bool {
    match b
    case PadA => n.a
    case PadB => n.b
    case PadUp => n.up
    case PadDown => n.down
    case PadLeft => n.left
    case PadRight => n.right
    case PadStart => n.start
    case PadSelect => n.select
  }

  /** The default pad: nothing pressed. */
  const Released: Nes := Nes(false, false, false, false, false, false, false, false)

  /** Every button pressed on `n` is pressed on `m`. */
  predicate NesBelow(n: Nes, m: Nes) {
    forall b :: Button(n, b) ==> Button(m, b)
  }

  /** Two NES pads fused: a button is down when it is down on either pad. */
  function NesCombine(n: Nes, with: Nes): Nes {
    Nes(n.a || with.a, n.b || with.b, n.up || with.up, n.down || with.down,
        n.left || with.left, n.right || with.right, n.start || with.start,
        n.select || with.select)
  }

  /** A button is down on the fused pad exactly when it is down on either operand. */
  lemma NesCombineButton(n: Nes, m: Nes, b: NesButton)
    ensures Button(NesCombine(n, m), b) <==> Button(n, b) || Button(m, b)
  {}

  lemma NesCombineCommutative(n: Nes, m: Nes)
    ensures NesCombine(n, m) == NesCombine(m, n)
  {}

  lemma NesCombineAssociative(n: Nes, m: Nes, k: Nes)
    ensures NesCombine(NesCombine(n, m), k) == NesCombine(n, NesCombine(m, k))
  {}

  lemma NesCombineIdempotent(n: Nes)
    ensures NesCombine(n, n) == n
  {}

  /** Fusing with the released pad changes nothing. */
  lemma NesCombineReleased(n: Nes)
    ensures NesCombine(n, Released) == n
    ensures NesCombine(Released, n) == n
  {}

  /** The fused pad is above both operands. */
  lemma NesCombineUpperBound(n: Nes, m: Nes)
    ensures NesBelow(n, NesCombine(n, m)) && NesBelow(m, NesCombine(n, m))
  {
    forall b {
      NesCombineButton(n, m, b);
    }
  }

  /** The fused pad is the least pad that is above both operands. */
  lemma NesCombineLeastUpperBound(n: Nes, m: Nes, k: Nes)
    ensures NesBelow(NesCombine(n, m), k) <==> NesBelow(n, k) && NesBelow(m, k)
  {
    forall b {
      NesCombineButton(n, m, b);
    }
  }

  /** A modern dual-stick controller. Stick axes range over [-1, 1]
      (negative is left / up), trigger axes over [0, 1]. */
  datatype Controller = Controller(
    a: bool, b: bool, x: bool, y: bool,
    up: bool, down: bool, left: bool, right: bool,
    start: bool, select: bool, guide: bool,
    leftShoulder: bool, rightShoulder: bool, leftStick: bool, rightStick: bool,
    leftStickX: real, leftStickY: real, rightStickX: real, rightStickY: real,
    leftTrigger: real, rightTrigger: real)

  function Max(x: real, y: real): (m: real)
    ensures m >= x && m >= y
    ensures m == x || m == y
  {
    if x >= y then x else y
  }

  /** Every button of `c` is down on `d`, and every axis of `d` is at least that of `c`. */
  predicate ControllerBelow(c: Controller, d: Controller) {
    && (c.a ==> d.a) && (c.b ==> d.b) && (c.x ==> d.x) && (c.y ==> d.y)
    && (c.up ==> d.up) && (c.down ==> d.down) && (c.left ==> d.left) && (c.right ==> d.right)
    && (c.start ==> d.start) && (c.select ==> d.select) && (c.guide ==> d.guide)
    && (c.leftShoulder ==> d.leftShoulder) && (c.rightShoulder ==> d.rightShoulder)
    && (c.leftStick ==> d.leftStick) && (c.rightStick ==> d.rightStick)
    && c.leftStickX <= d.leftStickX && c.leftStickY <= d.leftStickY
    && c.rightStickX <= d.rightStickX && c.rightStickY <= d.rightStickY
    && c.leftTrigger <= d.leftTrigger && c.rightTrigger <= d.rightTrigger
  }

  /** Two controllers fused: buttons are OR'd, every axis takes the larger value. */
  function ControllerCombine(c: Controller, with: Controller): Controller {
    Controller(
      c.a || with.a, c.b || with.b, c.x || with.x, c.y || with.y,
      c.up || with.up, c.down || with.down, c.left || with.left, c.right || with.right,
      c.start || with.start, c.select || with.select, c.guide || with.guide,
      c.leftShoulder || with.leftShoulder, c.rightShoulder || with.rightShoulder,
      c.leftStick || with.leftStick, c.rightStick || with.rightStick,
      Max(c.leftStickX, with.leftStickX), Max(c.leftStickY, with.leftStickY),
      Max(c.rightStickX, with.rightStickX), Max(c.rightStickY, with.rightStickY),
      Max(c.leftTrigger, with.leftTrigger), Max(c.rightTrigger, with.rightTrigger))
  }

  /** The fused controller is above both operands. */
  lemma ControllerCombineUpperBound(c: Controller, d: Controller)
    ensures ControllerBelow(c, ControllerCombine(c, d))
    ensures ControllerBelow(d, ControllerCombine(c, d))
  {}

  lemma ControllerCombineCommutative(c: Controller, d: Controller)
    ensures ControllerCombine(c, d) == ControllerCombine(d, c)
  {}

  lemma ControllerCombineAssociative(c: Controller, d: Controller, e: Controller)
    ensures ControllerCombine(ControllerCombine(c, d), e) == ControllerCombine(c, ControllerCombine(d, e))
  {}

  lemma ControllerCombineIdempotent(c: Controller)
    ensures ControllerCombine(c, c) == c
  {}

  /** The fused controller is the least controller above both operands. */
  lemma ControllerCombineLeast(c: Controller, d: Controller, e: Controller)
    requires ControllerBelow(c, e) && ControllerBelow(d, e)
    ensures ControllerBelow(ControllerCombine(c, d), e)
  {}

  /** Stick deflection needed before the stick presses a d-pad direction. */
  const StickSensitivity: real := 0.5

  /** A controller seen as a NES pad: face buttons, start and select copied; each
      d-pad direction pressed by its button or by the left stick past the threshold
      (strictly below -0.5 for up/left, at or above 0.5 for down/right). */
  function ControllerToNes(c: Controller): Nes {
    Nes(c.a, c.b,
        c.up || c.leftStickY < -StickSensitivity,
        c.down || c.leftStickY >= StickSensitivity,
        c.left || c.leftStickX < -StickSensitivity,
        c.right || c.leftStickX >= StickSensitivity,
        c.start, c.select)
  }

  /** With the left stick inside the dead zone the NES d-pad is exactly the controller d-pad;
      past the threshold (strictly below -0.5, or at or above 0.5) the stick presses the
      direction it points at, so a full deflection always does. */
  lemma ControllerToNesDeadZone(c: Controller)
    ensures -StickSensitivity <= c.leftStickY < StickSensitivity ==>
              ControllerToNes(c).up == c.up && ControllerToNes(c).down == c.down
    ensures -StickSensitivity <= c.leftStickX < StickSensitivity ==>
              ControllerToNes(c).left == c.left && ControllerToNes(c).right == c.right
    ensures c.leftStickY < -StickSensitivity ==> ControllerToNes(c).up
    ensures c.leftStickY >= StickSensitivity ==> ControllerToNes(c).down
    ensures c.leftStickX < -StickSensitivity ==> ControllerToNes(c).left
    ensures c.leftStickX >= StickSensitivity ==> ControllerToNes(c).right
    ensures c.leftStickY == -1.0 ==> ControllerToNes(c).up
    ensures c.leftStickY == 1.0 ==> ControllerToNes(c).down
    ensures c.leftStickX == -1.0 ==> ControllerToNes(c).left
    ensures c.leftStickX == 1.0 ==> ControllerToNes(c).right
  {}

  /** The face buttons, start and select are copied; a held d-pad button always shows
      through whatever the stick does; and a direction is pressed only by its own button
      or by the stick past the threshold. */
  lemma ControllerToNesButtons(c: Controller)
    ensures ControllerToNes(c).a == c.a && ControllerToNes(c).b == c.b
    ensures ControllerToNes(c).start == c.start && ControllerToNes(c).select == c.select
    ensures c.up ==> ControllerToNes(c).up
    ensures c.down ==> ControllerToNes(c).down
    ensures c.left ==> ControllerToNes(c).left
    ensures c.right ==> ControllerToNes(c).right
    ensures ControllerToNes(c).up ==> c.up || c.leftStickY < -StickSensitivity
    ensures ControllerToNes(c).down ==> c.down || c.leftStickY >= StickSensitivity
    ensures ControllerToNes(c).left ==> c.left || c.leftStickX < -StickSensitivity
    ensures ControllerToNes(c).right ==> c.right || c.leftStickX >= StickSensitivity
  {}

  /** The stick alone never presses two opposite directions. */
  lemma ControllerToNesOpposites(c: Controller)
    ensures !c.up && !c.down ==> !(ControllerToNes(c).up && ControllerToNes(c).down)
    ensures !c.left && !c.right ==> !(ControllerToNes(c).left && ControllerToNes(c).right)
  {}

  /** Converting a fused controller gives at least what fusing the converted pads
      gives on the face buttons and on down/right; up and left can be lost,
      because a stick at rest outweighs a stick pushed up or left under `Max`. */
  lemma ControllerCombineToNes(c: Controller, d: Controller)
    ensures var fused := ControllerToNes(ControllerCombine(c, d));
            var separate := NesCombine(ControllerToNes(c), ControllerToNes(d));
            && fused.a == separate.a && fused.b == separate.b
            && fused.start == separate.start && fused.select == separate.select
            && fused.down == separate.down && fused.right == separate.right
            && (fused.up ==> separate.up) && (fused.left ==> separate.left)
  {}

  /** A witness that fusing before converting can release "up". */
  lemma ControllerCombineToNesLosesUp()
    ensures var pushed := Controller(false, false, false, false, false, false, false, false,
                                     false, false, false, false, false, false, false,
                                     0.0, -1.0, 0.0, 0.0, 0.0, 0.0);
            var rest := pushed.(leftStickY := 0.0);
            && ControllerToNes(pushed).up
            && !ControllerToNes(ControllerCombine(pushed, rest)).up
  {}
}

=== FILE: scenarios.dfy ===
/** Worked examples of the assignment on small pools. */
module Scenarios {
  import opened Optional
  import opened Pads
  import opened Keys
  import opened Devices
  import opened Collection

  /** A controller with only the A button down and every axis at rest. */
  const PressingA: Controller :=
    Controller(true, false, false, false, false, false, false, false,
               false, false, false, false, false, false, false,
               0.0, 0.0, 0.0, 0.0, 0.0, 0.0)

  const NesA: Nes := Nes(true, false, false, false, false, false, false, false)

  /** One NES player and one controller holding A: the player gets a pad holding A. */
  lemma ControllerServesNesPlayer()
    ensures Assign([ControllerDevice(PressingA)], [NesType]) == [Some(NesDevice(NesA))]
  {
    ControllerTaken();
    AssignMergesRounds([ControllerDevice(PressingA)], [NesType]);
    SurplusNone([ControllerDevice(PressingA)], [NesType]);
  }

  /** The first split takes the lone controller as a pad holding A. */
  lemma ControllerTaken()
    ensures Split([ControllerDevice(PressingA)], [NesType]) == SplitResult([Some(NesDevice(NesA))], [])
  {}

  /** One NES player, a controller holding A and an idle keyboard. The controller is the
      closer fit and is taken first; the keyboard is absorbed on the next pass and, being
      idle, adds nothing. */
  lemma IdleKeyboardIsAbsorbed()
    ensures Assign([ControllerDevice(PressingA), KeyboardDevice(NoKeys)], [NesType]) == [Some(NesDevice(NesA))]
  {
    var pool := [ControllerDevice(PressingA), KeyboardDevice(NoKeys)];
    AssignMergesRounds(pool, [NesType]);
    ControllerBeforeKeyboard();
    IdleKeyboardSurplus();
    MergeAllOne([Some(NesDevice(NesA))], [Some(NesDevice(Released))]);
    IdleKeyboardMerge();
  }

  /** Folding a released pad into a pad holding A changes nothing. */
  lemma IdleKeyboardMerge()
    ensures Merge([Some(NesDevice(NesA))], [Some(NesDevice(Released))]) == [Some(NesDevice(NesA))]
  {
    assert NesCombine(NesA, Released) == NesA;
  }

  /** After the controller is taken, the only later pass finds the idle keyboard. */
  lemma IdleKeyboardSurplus()
    ensures Surplus([ControllerDevice(PressingA), KeyboardDevice(NoKeys)], [NesType]) == [[Some(NesDevice(Released))]]
  {
    ControllerBeforeKeyboard();
    IdleKeyboardPass();
    assert Rounds([], [NesType]) == [];
  }

  /** The first pass takes the controller, the closer fit, and leaves the keyboard. */
  lemma ControllerBeforeKeyboard()
    ensures Split([ControllerDevice(PressingA), KeyboardDevice(NoKeys)], [NesType])
            == SplitResult([Some(NesDevice(NesA))], [KeyboardDevice(NoKeys)])
  {}

  /** The second pass takes the idle keyboard as a released pad. */
  lemma IdleKeyboardPass()
    ensures Split([KeyboardDevice(NoKeys)], [NesType]) == SplitResult([Some(NesDevice(Released))], [])
  {}

  /** A controller with only the B button down. */
  const PressingB: Controller := PressingA.(a := false, b := true)

  /** One NES player and two controllers, one holding A and one holding B. The first
      controller is taken (a tie goes to the earlier device), the second is folded in on
      the next pass: the player gets a pad holding both A and B. */
  lemma TwoControllersFuse()
    ensures Assign([ControllerDevice(PressingA), ControllerDevice(PressingB)], [NesType])
            == [Some(NesDevice(Nes(true, true, false, false, false, false, false, false)))]
  {
    var pool := [ControllerDevice(PressingA), ControllerDevice(PressingB)];
    AssignMergesRounds(pool, [NesType]);
    FirstControllerTaken();
    SecondControllerSurplus();
    MergeAllOne([Some(NesDevice(NesA))], [Some(NesDevice(Nes(false, true, false, false, false, false, false, false)))]);
    TwoControllersMerge();
  }

  /** Folding a pad holding B into a pad holding A gives a pad holding both. */
  lemma TwoControllersMerge()
    ensures Merge([Some(NesDevice(NesA))], [Some(NesDevice(Nes(false, true, false, false, false, false, false, false)))])
            == [Some(NesDevice(Nes(true, true, false, false, false, false, false, false)))]
  {}

  /** The first pass takes the earlier of two equally fitting controllers. */
  lemma FirstControllerTaken()
    ensures Split([ControllerDevice(PressingA), ControllerDevice(PressingB)], [NesType])
            == SplitResult([Some(NesDevice(NesA))], [ControllerDevice(PressingB)])
  {}

  /** The only later pass finds the second controller, seen as a pad holding B. */
  lemma SecondControllerSurplus()
    ensures Surplus([ControllerDevice(PressingA), ControllerDevice(PressingB)], [NesType])
            == [[Some(NesDevice(Nes(false, true, false, false, false, false, false, false)))]]
  {
    FirstControllerTaken();
    SecondControllerAlone();
    assert Rounds([], [NesType]) == [];
  }

  /** On its own, the second controller is taken as a pad holding B. */
  lemma SecondControllerAlone()
    ensures Split([ControllerDevice(PressingB)], [NesType])
            == SplitResult([Some(NesDevice(Nes(false, true, false, false, false, false, false, false)))], [])
  {}

  /** One NES player and a keyboard holding W, which is bound to up: the player gets a
      pad holding up and nothing else. */
  lemma KeyboardServesNesPlayer()
    ensures Assign([KeyboardDevice(Keyboard([Key(W, W)]))], [NesType])
            == [Some(NesDevice(Nes(false, false, true, false, false, false, false, false)))]
  {
    KeyboardTaken();
    AssignMergesRounds([KeyboardDevice(Keyboard([Key(W, W)]))], [NesType]);
    SurplusNone([KeyboardDevice(Keyboard([Key(W, W)]))], [NesType]);
  }

  /** The first split takes the lone keyboard as a pad holding up. */
  lemma KeyboardTaken()
    ensures Split([KeyboardDevice(Keyboard([Key(W, W)]))], [NesType])
            == SplitResult([Some(NesDevice(Nes(false, false, true, false, false, false, false, false)))], [])
  {}

  /** A keyboard with scan code A down under key code A, and one with the same scan code
      under key code Q, as a different layout would report it. */
  const KeysA: Keyboard := Keyboard([Key(A, A)])
  const KeysQ: Keyboard := Keyboard([Key(A, Q)])

  /** One keyboard player and two keyboards sharing a scan code: the first keyboard is
      taken, the second is folded in on the next pass and, pressed last, its key code
      wins. */
  lemma LaterKeyboardKeyCodeWins()
    ensures Assign([KeyboardDevice(KeysA), KeyboardDevice(KeysQ)], [KeyboardType]) == [Some(KeyboardDevice(KeysQ))]
  {
    var pool := [KeyboardDevice(KeysA), KeyboardDevice(KeysQ)];
    AssignMergesRounds(pool, [KeyboardType]);
    FirstKeyboardTaken();
    SecondKeyboardSurplus();
    MergeAllOne([Some(KeyboardDevice(KeysA))], [Some(KeyboardDevice(KeysQ))]);
    KeyboardsMerge();
  }

  /** The first pass takes the earlier of two equally fitting keyboards. */
  lemma FirstKeyboardTaken()
    ensures Split([KeyboardDevice(KeysA), KeyboardDevice(KeysQ)], [KeyboardType])
            == SplitResult([Some(KeyboardDevice(KeysA))], [KeyboardDevice(KeysQ)])
  {}

  /** The only later pass finds the second keyboard. */
  lemma SecondKeyboardSurplus()
    ensures Surplus([KeyboardDevice(KeysA), KeyboardDevice(KeysQ)], [KeyboardType]) == [[Some(KeyboardDevice(KeysQ))]]
  {
    FirstKeyboardTaken();
    SecondKeyboardAlone();
    assert Rounds([], [KeyboardType]) == [];
  }

  /** On its own, the second keyboard is taken whole. */
  lemma SecondKeyboardAlone()
    ensures Split([KeyboardDevice(KeysQ)], [KeyboardType]) == SplitResult([Some(KeyboardDevice(KeysQ))], [])
  {}

  /** Folding the second keyboard into the first replaces the entry for scan code A. */
  lemma KeyboardsMerge()
    ensures Merge([Some(KeyboardDevice(KeysA))], [Some(KeyboardDevice(KeysQ))]) == [Some(KeyboardDevice(KeysQ))]
  {
    assert Without(KeysA.pressed, A) == [];
    assert KeysQ.pressed[..0] == [];
    assert PressAll(KeysA.pressed, KeysQ.pressed) == KeysQ.pressed;
    DeviceCombineSameKind(KeyboardDevice(KeysA), KeyboardDevice(KeysQ));
  }

  /** One keyboard player and a NES pad, which cannot stand in for a keyboard: the
      player gets nothing and the pad is never taken. */
  lemma IncompatibleDeviceIsLeft()
    ensures Assign([NesDevice(NesA)], [KeyboardType]) == [None]
    ensures Split([NesDevice(NesA)], [KeyboardType]).remaining == [NesDevice(NesA)]
  {
    NesPadNotTaken();
    RoundsUnfold([NesDevice(NesA)], [KeyboardType]);
    AssignMergesRounds([NesDevice(NesA)], [KeyboardType]);
    assert Surplus([NesDevice(NesA)], [KeyboardType]) == [];
  }

  /** A split for a keyboard player takes nothing from a pool holding only a NES pad. */
  lemma NesPadNotTaken()
    ensures Split([NesDevice(NesA)], [KeyboardType]) == SplitResult([None], [NesDevice(NesA)])
  {}
}
